=== FILE: README.md ===
# init-machine, modelled in Dafny

`init-machine` reconciles a Fedora host with a declarative configuration.
Each named entry may carry an install section and a files section:

- The install section names a package. The package comes either from a dnf
  repository, optionally after adding that repository, or from a remote
  `.rpm` file. Each install section has a probe command (`if_fail`), and the
  package is installed only when the probe fails.
- The files section maps origin files to target paths. Target paths may hold
  `${NAME}` placeholders, filled from the environment.

A run has four phases:

1. It loads every entry. Loading validates the install sections, expands the
   target paths and classifies each target as created, updated or unchanged.
2. It prints a plan: each entry's name, then what would change or `OK`.
3. It asks for confirmation once, and only when something would change.
4. Only on the exact answer `Y`, it applies every entry in order. For each
   entry it installs first, then writes the files.

The model covers the whole of that engine, which lives in `main.py`. The host
is abstract:

- The filesystem is a map from path to content. It holds what the tool itself
  reads and writes. Commands do not change it (see "## Left out").
- The environment is a map from name to value.
- Every external call goes into an ordered log. An external call is a
  command or an HTTP download. An oracle answers the call at position i of
  the log (commands and downloads counted together). So the same probe may
  answer differently in the planning pass and in the apply pass.
- The typed answer is a parameter.

The parts of the original that change the host are methods that take a
`Shell.Host`: the install paths, `write_files`, `get_actions` and the
top-level loops. Each of them is proved equal to a function over
`State(fs, log)`. `Files.NewFilesConfig` only reads the host's filesystem and
is proved equal to `Files.ClassifyAll`. The substitution loop,
`Environment.Substitute`, works on a plain string and is proved equal to
`Environment.Expand`. The lemmas state their properties about those
functions.

Modules:

- `Common`: optional values, results, and the fatal conditions.
- `Shell`: `run_command`'s split on single spaces, and the host.
- `Environment`: the placeholder scanner, `str.replace`, and the
  substitution loop.
- `Install`: validation, commands, the temporary path and the install paths.
- `Files`: classification and `write_files`.
- `Plan`: the entry and `get_actions`.
- `Reconcile`: load, plan, confirm and apply.

Points of the code that the model follows closely:

- `run_command` (main.py:26) splits on the single character `' '`, and empty
  pieces are kept: `"a  b"` gives `["a", "", "b"]` (`Shell.Split`).
- The substitution loop (main.py:40-44) collects the matches of the original
  string. It then replaces each one throughout the current string. A value
  that itself spells a later placeholder is therefore expanded again
  (`Environment.ValuesAreExpandedAgain`). When no value of a name the target
  uses holds a `$`, the loop equals a single left-to-right pass over the placeholders, provided the
  target is well formed: its literal text and its names hold no `$`, `{`
  or `}` (`Environment.TemplateExpansion`). Without that condition, replacing
  an earlier match everywhere can also rewrite the front of a later match:
  in `${A}${A}x}` the matches are `${A}` and `${A}x}`, and the result is
  `vvx}` when `A` is `v`, whatever `A}x` is bound to
  (`Environment.ReplaceOvertakesLaterMatch`).
- The placeholder's name is `[^{]*` matched greedily, so it can contain `}`:
  `${A}/x}` names the variable `A}/x` (`Environment.NameMayHoldCloseBrace`).
- In `install`, the `elif` at line 85 tests a bound method, which is always
  true. The remote-file path is therefore modelled as a plain `else`.

## Model

| member | source | states |
|---|---|---|
| Shell.Split | main.py:26 | `command.split(" ")`: never an empty list, and no piece contains the separator |
| Shell.SplitJoin | main.py:26 | joining the pieces with the separator gives back the command, so the split loses nothing |
| Shell.JoinSplit | main.py:26 | splitting the join of non-empty-list, separator-free words gives back exactly those words |
| Shell.SplitLeadingWords | main.py:26 | separator-free words placed in front of a string split off one by one; the rest splits on its own |
| Shell.Host.Run | main.py:17-28 | appends one command, whose argv is the command split on spaces, to the log; status holds iff the exit code is 0; output is stdout on success and stderr otherwise; the tool itself writes no file |
| Shell.Host.Fetch | main.py:110 | appends one download to the log and returns the response answering that position; the tool itself writes no file |
| Shell.Host.Write | main.py:115-116 | the file at the path now holds exactly the content; every other path and the log are unchanged |
| Environment.OpenFreeLen | main.py:40 | `[^{]*` first takes the longest prefix without `{` and stops at the first `{` |
| Environment.LastClose | main.py:40 | backtracking stops at the last `}` of that prefix; no `}` follows it; none means no match |
| Environment.MatchLen | main.py:40 | a match starts with `${`, ends with `}`, and has no `{` in between; whenever some `}` follows `${` before any `{`, there is a match, and no such `}` lies beyond its end (greedy `[^{]*`) |
| Environment.Scan | main.py:40-41 | every match found is `"${" + name + "}"` with no `{` in the name |
| Environment.Substitute | main.py:31-44 | the loop over the matches of the original string, each replaced throughout the current string, computes `Expand` |
| Environment.ExpandWithFailsOnFirstUnbound | main.py:41-43 | the loop fails iff some match names an unbound variable, and the error names the first such match, whatever the replacements before it did |
| Environment.UnboundAborts | main.py:42 | substitution fails iff some placeholder of the string is unbound, with `UnboundVariable` of the first one |
| Environment.NoOpenerNoMatch | main.py:40-41 | a string without `${` has no match |
| Environment.NoOpenerUnchanged | main.py:40-44 | a string without `${` is returned unchanged under every environment |
| Environment.ScanRender | main.py:40-41 | in a template whose texts and names avoid `$`, `{` and `}`, the matches are exactly its placeholders, in order |
| Environment.ReplaceRender | main.py:43 | replacing `${n}` by a value without `$` turns exactly the `${n}` placeholders of the template into that value and touches nothing else |
| Environment.ExpandRender | main.py:41-43 | running the loop over such placeholders, while the values of their bound names hold no `$`, resolves them one name at a time, or fails at the first unbound one; values of other names do not matter |
| Environment.FillResolve | main.py:41-43 | the single-pass reference expansion is the template with every bound placeholder resolved, or the first unbound name |
| Environment.TemplateExpansion | main.py:31-44 | for a well-formed target whose own names' values hold no `$` (other variables may hold anything), substitution equals the single left-to-right pass: each `${NAME}` becomes `environ[NAME]`, and the first unbound name is fatal |
| Environment.ValuesAreExpandedAgain | main.py:41-43 | when the value of `a` spells `${b}`, `${a}${b}` expands to two copies of b's value, unlike the single pass |
| Environment.NameMayHoldCloseBrace | main.py:40-42 | `${A}/x}` is one match named `A}/x`, so it fails even when `A` is bound |
| Environment.ReplaceOvertakesLaterMatch | main.py:40-43 | in `${A}${A}x}` the matches are `${A}` and `${A}x}`; replacing `${A}` throughout also rewrites the front of the second, so the expansion is `vvx}` and the binding of `A}x` goes unused |
| Install.NewInstallConfig | main.py:51-66 | construction succeeds iff `if_fail` is present and has no newline, exactly one of the two sources is truthy, and a truthy remote file ends in `.rpm`; the checks fail in that order, the fields are copied, and the result is `Valid` |
| Install.AddRepoCommandText | main.py:94 | the add-repo command is `"sudo dnf config-manager -y --add-repo " + repo` |
| Install.DnfInstallCommandText | main.py:100 | the install command is `"sudo dnf install -y " + spec` |
| Install.AddRepoArgv | main.py:94-95 | its argv is the five fixed words followed by the repository split on spaces |
| Install.DnfInstallArgv | main.py:100-101 | its argv is the four fixed words followed by the spec split on spaces |
| Install.FileName | main.py:113 | the text after the URL's last `/`: it holds no `/`, ends the URL, and is the whole URL or follows a `/` |
| Install.ShouldBeInstalled | main.py:69-76 | true iff the probe did not exit with 0; the probe is logged and the tool itself writes no file |
| Install.InstallRpm | main.py:100-103 | issues the install command; a failure ends the run with its stderr |
| Install.InstallFromRepo | main.py:89-103 | follows `FromRepoSpec`: the add-repo command only when `repo` is truthy, the install after it, and the first failure is fatal; a failed add-repo ends with the corrected error (see Left out) |
| Install.InstallFromRemoteFile | main.py:106-122 | follows `FromRemoteSpec`: download; a status other than 200 is fatal; otherwise the body is stored at `/tmp/<file name>` and installed from there |
| Install.Install | main.py:79-86 | follows `InstallSpec`: the probe, then the repository path when `install_from_repo` is truthy and the remote-file path otherwise |
| Install.SatisfiedProbeInstallsNothing | main.py:82 | a probe that exits with 0 leads to nothing but that probe, and the tool itself writes no file |
| Install.RepoPathCommands | main.py:82-103 | on the repository path the log is the probe, add-repo exactly when `repo` is truthy, then install unless add-repo failed; the run goes on iff every command succeeded; the tool itself writes no file |
| Install.RemotePathCommands | main.py:82-122 | on the remote path the log is the probe and the download; a status other than 200 aborts with the URL and body text; otherwise the body lands at `/tmp/` + the file name and its install decides the outcome |
| Install.InstallFrame | main.py:79-122 | while installing, the tool itself writes no path other than the temporary RPM path |
| Install.InstallKeepsFiles | main.py:79-122 | while installing, the tool removes no file and only appends to the log |
| Install.FromRepoAsWritten | main.py:89-103 | the repository path as written: a failed add-repo ends the run with `UnboundLocalError` on `output`; the tool itself writes no file |
| Install.FromRepoSpec | main.py:89-103 | the repository path as intended: a failed add-repo ends the run naming the repository and the command's stderr; the tool itself writes no file |
| Install.AddRepoFailureLosesOutput | main.py:95-97 | the code as written and the corrected code issue the same calls and fail in the same cases; they differ exactly on a failed add-repo, where the code as written loses the repository and the command's output |
| Files.Classify | main.py:136-142 | CREATED iff the target is absent; UPDATED iff it is present with other content; NONE iff it is present with the same content |
| Files.RecordFor | main.py:136-149 | one pair: an unbound placeholder in the target fails first, then an unreadable origin fails; otherwise the record keeps the origin, its content, the expanded target and the classification |
| Files.ClassifyAllPointwise | main.py:133-149 | loading succeeds iff every pair can be built, giving one record per pair in declaration order; otherwise it fails with the first pair's error |
| Files.NewFilesConfig | main.py:133-149 | the loop that appends one record per pair computes `ClassifyAll` |
| Files.WriteFiles | main.py:152-175 | the filesystem becomes every CREATED and UPDATED record written in order, and no command is issued |
| Files.ApplyRecordsLastWriter | main.py:155-172 | after writing, a path holds the content of the last record that writes it; any other path is unchanged |
| Files.ApplyRecordsGrows | main.py:155-172 | writing the files removes none |
| Files.Idempotent | main.py:133-175 | when targets are distinct and no origin is a written target, loading the same pairs again after `write_files` finds every target up to date (NONE) |
| Plan.NewEntry | main.py:181-187 | the install section is built first and its error wins; files are loaded only when present, and their error follows; success iff both parts succeed, and then the entry is valid, keeps the name, and holds exactly the built install configuration and file records |
| Plan.BuildEntry | main.py:181-187 | the constructor computes `NewEntry` |
| Plan.PackageName | main.py:193 | the package announced is `install_from_repo` when truthy, else the remote file |
| Plan.FileLinesAppend | main.py:195-202 | the file lines of a concatenation are the lines of each part, in order |
| Plan.FileLinesEmpty | main.py:195-202 | there is no file line iff no record is CREATED or UPDATED |
| Plan.Report | main.py:204-210 | the printout is the name line, then the actions or `OK`, then an empty line |
| Plan.PlanEntryFrame | main.py:190-192 | while planning an entry the tool itself writes no file, and it issues the probe iff the entry has an install section |
| Plan.PlanEntryHasActions | main.py:190-211 | an entry reports actions iff its probe fails or one of its files is CREATED or UPDATED |
| Plan.CollectFileLines | main.py:195-202 | the loop collects one line per CREATED or UPDATED record, in order |
| Plan.GetActions | main.py:190-211 | follows `PlanEntry`: the install line first, then the file lines; prints `Report`; returns true iff there are actions |
| Reconcile.Load | main.py:216-218 | loading succeeds iff every configured entry can be built, yielding one entry per configured entry, in order, each as `NewEntry` builds it; otherwise it fails with the error of the first entry that cannot be built |
| Reconcile.LoadPrefixFailure | main.py:216-218 | a failure while loading the first entries is the failure of the whole load |
| Reconcile.LoadEntries | main.py:216-218 | the loading loop computes `Load`, and every entry it loads is valid |
| Reconcile.LoadValid | main.py:216-218 | every loaded entry passes validation |
| Reconcile.PlanAllFrame | main.py:220-222 | while planning, the tool itself writes no file, and it issues exactly one probe per install section, in entry order |
| Reconcile.PlanAllAny | main.py:220-222 | something is to be done iff some entry reports actions; every entry is planned, with no short-circuit |
| Reconcile.PlanAllReplay | main.py:220-222 | the plan depends only on whether each probe succeeds, not on the files or earlier calls |
| Reconcile.PlanTwice | main.py:220-222 | planning twice in a row, with probes that answer alike, prints the same report, and the tool itself writes no file |
| Reconcile.PlanEntries | main.py:220-222 | the planning loop computes `PlanAll` |
| Reconcile.ApplyAllAppend | main.py:224-228 | applying a concatenation applies the first part, then, unless it failed, the second part from the state it left |
| Reconcile.ApplyAllGrows | main.py:224-228 | while applying, the tool removes no file and only appends to the log |
| Reconcile.ApplyEntries | main.py:224-228 | the apply loop computes `ApplyAll`: entries in order, each installed before its files are written, and the first failure ends the run |
| Reconcile.LoadFailureDoesNothing | main.py:216-218 | a configuration that fails to load stops the run before any call, any plan and any question |
| Reconcile.DeclinedChangesNothing | main.py:223 | unless the answer is exactly `Y`, the tool itself writes no file and only the planning probes are issued |
| Reconcile.NothingToDoNoPrompt | main.py:223 | with nothing to do the user is not asked, the answer does not matter, and only the probes happen |
| Reconcile.ConfirmedRunExtends | main.py:223-228 | a confirmed run with actions asks the question, removes no existing file itself, and logs the planning probes before the apply pass |
| Reconcile.Run | main.py:214-228 | the main program computes `RunSpec`: load, plan every entry, ask only when something is to be done, apply only on `Y` |

## Left out

- Reading and parsing `config.yaml` (main.py:217). The configuration arrives as a sequence of `Plan.RawEntry` values. An `install` or `files` value that is absent, null or an empty mapping is `None` or empty. Values that are not strings are not represented.
- The text of every `[INFO]` and `[ERROR]` message, and the exit code. Fatal conditions are `Common.Fatal` values returned to the top level. The plan printed by `get_actions` is kept as `Plan.Report` lines.
- Subprocesses, HTTP and the console prompt are not executed. The oracle and the answer parameter stand in for them. Exceptions raised by `requests` or `subprocess`, such as an unreachable host or a missing executable, are not modelled.
- Text decoding and the difference between bytes and text. `open(path, "r")` at main.py:141 and main.py:146 decodes with the locale's encoding and turns `\r\n` into `\n`. So a CRLF origin is written to its target with LF line endings (main.py:160-162, 170-172). A CRLF file and an LF file with the same text also compare equal, which gives NONE. The map holds file contents as text already read, so "content" in `Files.Classify`, `Files.ApplyRecordsLastWriter` and `Files.Idempotent` means the text as read, not the bytes. Command output and the HTTP body are strings too, and the body is written as `Response.content`.
- Side effects of commands on files. `sudo dnf config-manager --add-repo` (main.py:94-95) writes repository configuration, `sudo dnf install` (main.py:100-101, 119-120) installs package files, and an `if_fail` probe may write anything. `Shell.Host.Run` leaves the filesystem map alone: the map holds only what the tool itself reads and writes. So the frame rows ("the tool itself writes no file", "removes no file") are about the tool's own writes, not about the host's disk.
- The `PermissionError` fallback in `write_files` (main.py:163-167, 173-175). It issues `sudo mkdir` and `sudo cp`, and its outcome is ignored. The model takes the direct-write path: every write succeeds.
- `os.makedirs` and directories. The filesystem is a flat map. A target that exists as a directory, or an origin that cannot be read for reasons other than absence, is not distinguished from the cases the map can express.
- A CREATED target with no directory part, such as `notes.txt`. There main.py:160 calls `os.makedirs("", exist_ok=True)`, which raises `FileNotFoundError`; `except PermissionError` does not catch it, so the real run ends there. `Files.WriteFiles` writes the file instead.
- Failing to write the downloaded RPM under `/tmp` is not modelled.
- Install.InstallFromRepo: on a failed add-repo command it ends with the corrected `AddRepoFailed(repo, stderr)` of `Install.FromRepoSpec`, where main.py:95-97 raises `UnboundLocalError` on `output`. Through `Install.InstallSpec` the same holds for `Install.Install`, `Reconcile.ApplyEntries`, `Reconcile.RunSpec` and `Reconcile.Run`. The code as written is `Install.FromRepoAsWritten`. `Install.AddRepoFailureLosesOutput` proves the two issue the same calls, leave the same files and abort in the same cases, so only the error value differs.
- Reconcile.ConfirmedRunExtends: it states what a confirmed run keeps, not the contents the apply pass leaves. Those are given by `Reconcile.ApplyEntries`, `Install.Install` and `Files.WriteFiles`.

## Findings

| source | as written | input that shows it | evidently intended | confidence | as-written member | corrected member |
|---|---|---|---|---|---|---|
| main.py:95-97 | the add-repo result is unpacked as `status, _`, yet the failure message reads `output`. `output` is a local of the function assigned only at line 101, so Python raises `UnboundLocalError` | an entry with a truthy `repo` whose probe fails and whose add-repo command exits non-zero; `Install.AddRepoFailureLosesOutput` shows the outcome is `UnboundLocal("output")` | keep the command's output, as `status, output`, and stop with "Failed to add repo <repo>: <output>" | not executed | Install.FromRepoAsWritten | Install.FromRepoSpec |

=== FILE: common.dfy ===
/** Values shared by every part of the reconciliation engine: optional values,
    results, and the fatal conditions that end a run. */
module Common {

  datatype Option<+T> = None | Some(value: T)

  datatype Result<+T, +E> = Ok(value: T) | Err(error: E)

  /** Every way the tool stops the whole run. In the original each of these is
      either `print_message(..., error=True)` (which calls `exit(1)`) or an
      uncaught exception; here they are returned to the top level instead. */
  datatype Fatal =
    | MissingKey(key: string)                     // `data["if_fail"]` raises KeyError
    | MultilineProbe                              // 'if_fail' contains a newline
    | NotExactlyOneSource                         // both or neither package source set
    | RemoteNotRpm                                // remote file does not end in ".rpm"
    | UnboundVariable(name: string)               // `os.environ[name]` raises KeyError
    | UnreadableOrigin(path: string)              // `open(origin_file)` raises
    | AddRepoFailed(repo: string, output: string) // adding a repository failed
    | UnboundLocal(name: string)                  // a local read before assignment
    | InstallFailed(output: string)               // `dnf install` failed
    | DownloadFailed(url: string, text: string)   // HTTP status other than 200

  /** How a step of the run ends: normally, or with a fatal condition. */
  datatype Outcome = Done | Abort(error: Fatal)
}

=== FILE: environment.dfy ===
/** `substitute_environment_variable`: `${NAME}` placeholders in a target path
    are replaced by values from the process environment.

    The code finds every match of the pattern `\${([^{]*)}` in the ORIGINAL
    string, then, match by match, replaces ALL occurrences of the matched text
    in the CURRENT string with the variable's value. An unbound name is fatal.
    The group is greedy and only excludes '{', so it runs up to the next '{'
    (or the end) and backs off to the last '}' before it: a name may contain '}'. */
module Environment {
  import opened Common

  /** One match of the pattern: the whole matched text and its group. */
  datatype Placeholder = Placeholder(text: string, name: string)

  /** Length of the longest prefix of `s` without '{' (what `[^{]*` first takes). */
  function OpenFreeLen(s: string): (n: nat)
    ensures n <= |s|
    ensures forall k :: 0 <= k < n ==> s[k] != '{'
    ensures n < |s| ==> s[n] == '{'
    decreases |s|
  {
    if s == [] || s[0] == '{' then 0 else 1 + OpenFreeLen(s[1..])
  }

  /** Index of the last '}' in `s`, if any (where backtracking stops). */
  function LastClose(s: string): (k: Option<nat>)
    ensures k.Some? ==> k.value < |s| && s[k.value] == '}'
    ensures k.Some? ==> forall j :: k.value < j < |s| ==> s[j] != '}'
    ensures k.None? ==> forall j :: 0 <= j < |s| ==> s[j] != '}'
    decreases |s|
  {
    if s == [] then None
    else if s[|s| - 1] == '}' then Some(|s| - 1)
    else LastClose(s[..|s| - 1])
  }

  /** Every '}' reached before the first '{' lies in the '{'-free prefix, at
      or before its last '}': the greedy group backs off no further than that. */
  lemma GreedyClose(body: string)
    ensures forall j :: 0 <= j < |body| && body[j] == '}' && (forall i :: 0 <= i < j ==> body[i] != '{') ==>
      && j < OpenFreeLen(body)
      && LastClose(body[..OpenFreeLen(body)]).Some?
      && j <= LastClose(body[..OpenFreeLen(body)]).value
  {
    var n := OpenFreeLen(body);
    var prefix := body[..n];
    forall j | 0 <= j < |body| && body[j] == '}' && (forall i :: 0 <= i < j ==> body[i] != '{')
      ensures j < n && LastClose(prefix).Some? && j <= LastClose(prefix).value
    {
      assert n < |body| ==> body[n] == '{';
      assert prefix[j] == '}';
    }
  }

  /** Length of the match that starts at the very beginning of `s`, if any. */
  function MatchLen(s: string): (k: Option<nat>)
    ensures k.Some? ==> 3 <= k.value <= |s| && s[0] == '$' && s[1] == '{' && s[k.value - 1] == '}'
    ensures k.Some? ==> forall j :: 2 <= j < k.value - 1 ==> s[j] != '{'
    ensures (&& |s| >= 2 && s[0] == '$' && s[1] == '{'
             && exists j :: 2 <= j < |s| && s[j] == '}' && forall i :: 2 <= i < j ==> s[i] != '{')
            ==> k.Some?
    ensures k.Some? ==> forall j :: k.value <= j < |s| && (forall i :: 2 <= i < j ==> s[i] != '{') ==> s[j] != '}'
  {
    if |s| >= 2 && s[0] == '$' && s[1] == '{' then
      var body := s[2..];
      GreedyClose(body);
      assert forall j :: 2 <= j < |s| ==> s[j] == body[j - 2];
      match LastClose(body[..OpenFreeLen(body)])
      case Some(j) => Some(j + 3)
      case None => None
    else None
  }

  /** `pattern.finditer(s)`: the matches from left to right, each search
      resuming just after the previous match. */
  function Scan(s: string): (ps: seq<Placeholder>)
    ensures forall k :: 0 <= k < |ps| ==> ps[k].text == "${" + ps[k].name + "}"
    ensures forall k :: 0 <= k < |ps| ==> '{' !in ps[k].name
    decreases |s|
  {
    if s == [] then []
    else match MatchLen(s)
      case Some(n) =>
        assert s[..n] == "${" + s[2..n - 1] + "}";
        [Placeholder(s[..n], s[2..n - 1])] + Scan(s[n..])
      case None => Scan(s[1..])
  }

  /** Python's `s.replace(pat, repl)` for a non-empty `pat`: every occurrence,
      left to right, without overlap. */
  function ReplaceAll(s: string, pat: string, repl: string): string
    requires pat != []
    decreases |s|
  {
    if |s| < |pat| then s
    else if s[..|pat|] == pat then repl + ReplaceAll(s[|pat|..], pat, repl)
    else [s[0]] + ReplaceAll(s[1..], pat, repl)
  }

  /** The loop of lines 41-43, run over the matches `ps` from the string `s`. */
  function ExpandWith(s: string, ps: seq<Placeholder>, env: map<string, string>): Result<string, Fatal>
    requires forall k :: 0 <= k < |ps| ==> ps[k].text != []
    decreases |ps|
  {
    if ps == [] then Ok(s)
    else if ps[0].name !in env then Err(UnboundVariable(ps[0].name))
    else ExpandWith(ReplaceAll(s, ps[0].text, env[ps[0].name]), ps[1..], env)
  }

  /** `substitute_environment_variable(s)` under the environment `env`. */
  function Expand(s: string, env: map<string, string>): Result<string, Fatal>
  {
    ExpandWith(s, Scan(s), env)
  }

  /** The loop itself: `string` is reassigned once per match. */
  method Substitute(s: string, env: map<string, string>) returns (r: Result<string, Fatal>)
    ensures r == Expand(s, env)
  {
    var matches := Scan(s);
    var current := s;
    for i := 0 to |matches|
      invariant ExpandWith(current, matches[i..], env) == Expand(s, env)
    {
      var m := matches[i];
      assert matches[i..][0] == m && matches[i..][1..] == matches[i + 1..];
      if m.name !in env {
        return Err(UnboundVariable(m.name));
      }
      current := ReplaceAll(current, m.text, env[m.name]);
    }
    assert matches[|matches|..] == [];
    return Ok(current);
  }

  /** The first name among `ps` that `env` does not bind. */
  function FirstUnbound(ps: seq<Placeholder>, env: map<string, string>): (n: Option<string>)
    ensures n.None? <==> forall k :: 0 <= k < |ps| ==> ps[k].name in env
    ensures n.Some? ==> n.value !in env && exists k :: 0 <= k < |ps| && ps[k].name == n.value
    decreases |ps|
  {
    if ps == [] then None
    else if ps[0].name !in env then Some(ps[0].name)
    else
      var rest := FirstUnbound(ps[1..], env);
      assert forall k :: 1 <= k < |ps| ==> ps[k] == ps[1..][k - 1];
      rest
  }

  /** The loop aborts exactly when some match names an unbound variable, and
      then with the first such name, whatever the string is. */
  lemma {:induction false} ExpandWithFailsOnFirstUnbound(s: string, ps: seq<Placeholder>, env: map<string, string>)
    requires forall k :: 0 <= k < |ps| ==> ps[k].text != []
    ensures ExpandWith(s, ps, env).Err? <==> FirstUnbound(ps, env).Some?
    ensures ExpandWith(s, ps, env).Err? ==>
              ExpandWith(s, ps, env).error == UnboundVariable(FirstUnbound(ps, env).value)
    decreases |ps|
  {
    if ps != [] && ps[0].name in env {
      ExpandWithFailsOnFirstUnbound(ReplaceAll(s, ps[0].text, env[ps[0].name]), ps[1..], env);
    }
  }

  /** Substitution fails iff some placeholder of the string names an unbound
      variable; the error names the first of them. */
  lemma UnboundAborts(s: string, env: map<string, string>)
    ensures Expand(s, env).Err? <==> exists k :: 0 <= k < |Scan(s)| && Scan(s)[k].name !in env
    ensures Expand(s, env).Err? ==> Expand(s, env).error == UnboundVariable(FirstUnbound(Scan(s), env).value)
  {
    var ps := Scan(s);
    ExpandWithFailsOnFirstUnbound(s, ps, env);
    assert FirstUnbound(ps, env).None? <==> forall k :: 0 <= k < |ps| ==> ps[k].name in env;
  }

  /** Whether `s` contains the two characters "${" next to each other. */
  predicate HasOpener(s: string)
  {
    exists k :: 0 <= k < |s| - 1 && s[k] == '$' && s[k + 1] == '{'
  }

  /** A string without "${" has no match. */
  lemma {:induction false} NoOpenerNoMatch(s: string)
    requires !HasOpener(s)
    ensures Scan(s) == []
    decreases |s|
  {
    if s != [] {
      assert MatchLen(s).None? by {
        if |s| >= 2 {
          assert !(s[0] == '$' && s[1] == '{');
        }
      }
      assert !HasOpener(s[1..]) by {
        forall k | 0 <= k < |s[1..]| - 1 ensures !(s[1..][k] == '$' && s[1..][k + 1] == '{') {
          assert s[1..][k] == s[k + 1] && s[1..][k + 1] == s[k + 2];
        }
      }
      NoOpenerNoMatch(s[1..]);
    }
  }

  /** A string without "${" is returned unchanged, whatever the environment. */
  lemma NoOpenerUnchanged(s: string, env: map<string, string>)
    requires !HasOpener(s)
    ensures Expand(s, env) == Ok(s)
  {
    NoOpenerNoMatch(s);
  }

  // ---------------------------------------------------------------------------
  // What substitution does to a well-formed template.

  /** A template: literal text and `${NAME}` placeholders. */
  datatype Segment = Text(chars: string) | Var(name: string)

  /** Characters other than '$', '{' and '}'. */
  predicate Plain(x: string)
  {
    forall k :: 0 <= k < |x| ==> x[k] != '$' && x[k] != '{' && x[k] != '}'
  }

  /** Every literal and every name is Plain: nothing can be mistaken for a placeholder. */
  predicate WellFormed(t: seq<Segment>)
  {
    forall k :: 0 <= k < |t| ==> Plain(if t[k].Text? then t[k].chars else t[k].name)
  }

  /** A looser shape, kept while placeholders are replaced one by one:
      literals only need to be free of '$'. */
  predicate Loose(u: seq<Segment>)
  {
    forall k :: 0 <= k < |u| ==> if u[k].Text? then '$' !in u[k].chars else Plain(u[k].name)
  }

  function Spell(n: string): (s: string)
    ensures |s| == |n| + 3
  {
    "${" + n + "}"
  }

  /** The string a template stands for. */
  function Render(t: seq<Segment>): string
    decreases |t|
  {
    if t == [] then []
    else (match t[0] case Text(x) => x case Var(n) => Spell(n)) + Render(t[1..])
  }

  /** The placeholders of a template, in order. */
  function Occurrences(t: seq<Segment>): seq<Placeholder>
    decreases |t|
  {
    if t == [] then []
    else if t[0].Var? then [Placeholder(Spell(t[0].name), t[0].name)] + Occurrences(t[1..])
    else Occurrences(t[1..])
  }

  /** The reference meaning of `${NAME}` expansion: a single left-to-right pass
      in which every placeholder becomes its variable's value, and whose first
      unbound name is fatal. */
  function Fill(t: seq<Segment>, env: map<string, string>): Result<string, Fatal>
    decreases |t|
  {
    if t == [] then Ok([])
    else
      var head := match t[0]
        case Text(x) => Ok(x)
        case Var(n) => if n in env then Ok(env[n]) else Err(UnboundVariable(n));
      if head.Err? then head
      else
        var tail := Fill(t[1..], env);
        if tail.Err? then tail else Ok(head.value + tail.value)
  }

  function NamesOf(ps: seq<Placeholder>): set<string>
    decreases |ps|
  {
    if ps == [] then {} else {ps[0].name} + NamesOf(ps[1..])
  }

  /** Turns the placeholders named in `names` (and bound in `env`) into literals. */
  function Resolve(u: seq<Segment>, names: set<string>, env: map<string, string>): seq<Segment>
    decreases |u|
  {
    if u == [] then []
    else
      var seg := if u[0].Var? && u[0].name in names && u[0].name in env then Text(env[u[0].name]) else u[0];
      [seg] + Resolve(u[1..], names, env)
  }

  /** Turns every `${n}` of the template into the literal `v`. */
  function SubstVar(u: seq<Segment>, n: string, v: string): seq<Segment>
    decreases |u|
  {
    if u == [] then []
    else [if u[0] == Var(n) then Text(v) else u[0]] + SubstVar(u[1..], n, v)
  }

  lemma {:induction false} OpenFreeLenAfter(x: string, y: string)
    requires '{' !in x
    ensures OpenFreeLen(x + y) == |x| + OpenFreeLen(y)
    decreases |x|
  {
    if x == [] {
      assert x + y == y;
    } else {
      var s := x + y;
      assert x[0] in x;
      assert s[0] == x[0] && s[1..] == x[1..] + y;
      OpenFreeLenAfter(x[1..], y);
      assert OpenFreeLen(s) == 1 + OpenFreeLen(s[1..]);
    }
  }

  lemma {:induction false} LastCloseAfter(w: string, z: string)
    requires '}' !in z
    ensures LastClose(w + z) == LastClose(w)
    decreases |z|
  {
    if z == [] {
      assert w + z == w;
    } else {
      var s := w + z;
      assert s[|s| - 1] == z[|z| - 1] && z[|z| - 1] in z;
      assert s[..|s| - 1] == w + z[..|z| - 1];
      LastCloseAfter(w, z[..|z| - 1]);
      assert LastClose(s) == LastClose(s[..|s| - 1]);
    }
  }

  lemma {:induction false} ScanAfterText(x: string, y: string)
    requires '$' !in x
    ensures Scan(x + y) == Scan(y)
    decreases |x|
  {
    if x == [] {
      assert x + y == y;
    } else {
      var s := x + y;
      assert x[0] in x;
      assert s[0] == x[0] && s[1..] == x[1..] + y;
      assert MatchLen(s).None?;
      ScanAfterText(x[1..], y);
      assert Scan(s) == Scan(s[1..]);
    }
  }

  lemma WellFormedTail(t: seq<Segment>)
    requires t != [] && WellFormed(t)
    ensures WellFormed(t[1..])
  {
    forall k | 0 <= k < |t[1..]| ensures Plain(if t[1..][k].Text? then t[1..][k].chars else t[1..][k].name) {
      assert t[1..][k] == t[k + 1];
    }
  }

  lemma LooseTail(u: seq<Segment>)
    requires u != [] && Loose(u)
    ensures Loose(u[1..])
  {
    forall k | 0 <= k < |u[1..]| ensures if u[1..][k].Text? then '$' !in u[1..][k].chars else Plain(u[1..][k].name) {
      assert u[1..][k] == u[k + 1];
    }
  }

  /** Up to its first '{', a rendered template holds no '}'. */
  lemma {:induction false} RenderCloseFree(t: seq<Segment>)
    requires WellFormed(t)
    ensures forall k :: 0 <= k < OpenFreeLen(Render(t)) ==> Render(t)[k] != '}'
    decreases |t|
  {
    if t != [] {
      var y := Render(t[1..]);
      WellFormedTail(t);
      match t[0]
      case Text(x) =>
        assert Plain(x) by { assert t[0] == Text(x); }
        OpenFreeLenAfter(x, y);
        RenderCloseFree(t[1..]);
        assert Render(t) == x + y;
        forall k | 0 <= k < OpenFreeLen(Render(t)) ensures Render(t)[k] != '}' {
          if k >= |x| {
            assert Render(t)[k] == y[k - |x|];
          }
        }
      case Var(n) =>
        var s := Render(t);
        assert s[0] == '$' && s[1] == '{';
        assert s[1..][0] == '{';
        assert OpenFreeLen(s) == 1 + OpenFreeLen(s[1..]);
    }
  }

  /** Where a placeholder is followed by text whose first '{' comes before
      any '}', the match is exactly the placeholder. */
  lemma MatchLenSpell(n: string, y: string)
    requires Plain(n)
    requires forall k :: 0 <= k < OpenFreeLen(y) ==> y[k] != '}'
    ensures MatchLen(Spell(n) + y) == Some(|n| + 3)
  {
    var s := Spell(n) + y;
    var body := (n + "}") + y;
    assert s[0] == '$' && s[1] == '{' && s[2..] == body by {
      assert Spell(n) == "${" + (n + "}");
      assert s == "${" + body;
    }
    GroupOfSpell(n, y);
  }

  lemma GroupOfSpell(n: string, y: string)
    requires Plain(n)
    requires forall k :: 0 <= k < OpenFreeLen(y) ==> y[k] != '}'
    ensures LastClose(((n + "}") + y)[..OpenFreeLen((n + "}") + y)]) == Some(|n|)
  {
    var head := n + "}";
    var body := head + y;
    HeadOpenFree(n);
    OpenFreeLenAfter(head, y);
    var z := y[..OpenFreeLen(y)];
    assert body[..OpenFreeLen(body)] == head + z;
    LastCloseAfter(head, z);
    assert LastClose(head) == Some(|n|);
  }

  lemma HeadOpenFree(n: string)
    requires Plain(n)
    ensures '{' !in n + "}"
  {
    var head := n + "}";
    forall k | 0 <= k < |head| ensures head[k] != '{' {
      if k < |n| { assert head[k] == n[k]; }
    }
  }

  /** ... and the scan resumes right after it. */
  lemma ScanSpell(n: string, y: string)
    requires Plain(n)
    requires forall k :: 0 <= k < OpenFreeLen(y) ==> y[k] != '}'
    ensures Scan(Spell(n) + y) == [Placeholder(Spell(n), n)] + Scan(y)
  {
    var s := Spell(n) + y;
    MatchLenSpell(n, y);
    assert s[..|n| + 3] == Spell(n);
    assert s[2..|n| + 2] == n;
    assert s[|n| + 3..] == y;
  }

  /** The matches the code finds in a rendered template are its placeholders. */
  lemma {:induction false} ScanRender(t: seq<Segment>)
    requires WellFormed(t)
    ensures Scan(Render(t)) == Occurrences(t)
    decreases |t|
  {
    if t != [] {
      var y := Render(t[1..]);
      WellFormedTail(t);
      ScanRender(t[1..]);
      match t[0]
      case Text(x) =>
        assert Plain(x) by { assert t[0] == Text(x); }
        ScanAfterText(x, y);
      case Var(n) =>
        assert Plain(n) by { assert t[0] == Var(n); }
        RenderCloseFree(t[1..]);
        ScanSpell(n, y);
    }
  }

  lemma {:induction false} ReplaceAfterText(x: string, y: string, pat: string, repl: string)
    requires pat != [] && pat[0] == '$' && '$' !in x
    ensures ReplaceAll(x + y, pat, repl) == x + ReplaceAll(y, pat, repl)
    decreases |x|
  {
    var s := x + y;
    if x == [] {
      assert s == y;
    } else if |s| < |pat| {
      assert ReplaceAll(y, pat, repl) == y;
    } else {
      assert x[0] in x;
      assert s[..|pat|][0] == x[0];
      assert s[1..] == x[1..] + y;
      ReplaceAfterText(x[1..], y, pat, repl);
      assert ReplaceAll(s, pat, repl) == [x[0]] + ReplaceAll(s[1..], pat, repl);
      assert [x[0]] + x[1..] == x;
    }
  }

  /** Two different Plain names never spell the same placeholder, even with
      more text behind the first. */
  lemma PlaceholderMismatch(m: string, n: string, y: string)
    requires Plain(m) && Plain(n) && m != n
    requires |Spell(m) + y| >= |Spell(n)|
    ensures (Spell(m) + y)[..|Spell(n)|] != Spell(n)
  {
    var s := Spell(m) + y;
    var w := s[..|Spell(n)|];
    if |m| < |n| {
      assert w[|m| + 2] == '}' && Spell(n)[|m| + 2] == n[|m|];
    } else if |m| > |n| {
      assert w[|n| + 2] == m[|n|] && Spell(n)[|n| + 2] == '}';
    } else {
      var j :| 0 <= j < |m| && m[j] != n[j];
      assert w[j + 2] == m[j] && Spell(n)[j + 2] == n[j];
    }
  }

  /** `replace` of `${n}` on a text that starts with the placeholder `${m}`. */
  lemma ReplaceSpell(m: string, n: string, y: string, v: string)
    requires Plain(m) && Plain(n)
    ensures ReplaceAll(Spell(m) + y, Spell(n), v) ==
      (if m == n then v else Spell(m)) + ReplaceAll(y, Spell(n), v)
  {
    var pat := Spell(n);
    var s := Spell(m) + y;
    if m == n {
      assert s[..|pat|] == pat && s[|pat|..] == y;
    } else if |s| < |pat| {
      assert ReplaceAll(y, pat, v) == y;
    } else {
      PlaceholderMismatch(m, n, y);
      ReplaceSkipsOther(m, n, y, v);
    }
  }

  lemma ReplaceSkipsOther(m: string, n: string, y: string, v: string)
    requires Plain(m) && Plain(n)
    requires |Spell(m) + y| >= |Spell(n)| && (Spell(m) + y)[..|Spell(n)|] != Spell(n)
    ensures ReplaceAll(Spell(m) + y, Spell(n), v) == Spell(m) + ReplaceAll(y, Spell(n), v)
  {
    var s := Spell(m) + y;
    var rest := "{" + m + "}";
    forall k | 0 <= k < |rest| ensures rest[k] != '$' {
      if 0 < k <= |m| {
        assert rest[k] == m[k - 1];
      }
    }
    assert Spell(m) == "$" + rest;
    assert s[1..] == rest + y;
    ReplaceAfterText(rest, y, Spell(n), v);
  }

  /** One `replace` of `${n}` turns exactly the placeholders named n into literals. */
  lemma {:induction false} ReplaceRender(u: seq<Segment>, n: string, v: string)
    requires Loose(u) && Plain(n) && '$' !in v
    ensures ReplaceAll(Render(u), Spell(n), v) == Render(SubstVar(u, n, v))
    decreases |u|
  {
    if u != [] {
      var y := Render(u[1..]);
      LooseTail(u);
      ReplaceRender(u[1..], n, v);
      match u[0]
      case Text(x) =>
        assert '$' !in x by { assert u[0] == Text(x); }
        ReplaceAfterText(x, y, Spell(n), v);
      case Var(m) =>
        assert Plain(m) by { assert u[0] == Var(m); }
        ReplaceSpell(m, n, y, v);
    }
  }

  lemma {:induction false} ResolveNothing(u: seq<Segment>, env: map<string, string>)
    ensures Resolve(u, {}, env) == u
    decreases |u|
  {
    if u != [] {
      ResolveNothing(u[1..], env);
    }
  }

  lemma {:induction false} ResolveAfterSubst(u: seq<Segment>, names: set<string>, n: string, env: map<string, string>)
    requires n in env
    ensures Resolve(SubstVar(u, n, env[n]), names, env) == Resolve(u, names + {n}, env)
    decreases |u|
  {
    if u != [] {
      ResolveAfterSubst(u[1..], names, n, env);
    }
  }

  lemma SubstVarLoose(u: seq<Segment>, n: string, v: string)
    requires Loose(u) && '$' !in v
    ensures Loose(SubstVar(u, n, v))
    decreases |u|
  {
    if u != [] {
      LooseTail(u);
      SubstVarLoose(u[1..], n, v);
      var r := SubstVar(u, n, v);
      forall k | 0 <= k < |r| ensures if r[k].Text? then '$' !in r[k].chars else Plain(r[k].name) {
        if k > 0 {
          assert r[k] == SubstVar(u[1..], n, v)[k - 1];
        }
      }
    }
  }

  /** The replace loop, run on a rendered template over placeholders of Plain
      names, resolves exactly the names it has visited, or stops at the first
      unbound one. */
  lemma {:induction false} ExpandRender(u: seq<Segment>, ps: seq<Placeholder>, env: map<string, string>)
    requires Loose(u)
    requires forall k :: 0 <= k < |ps| ==> Plain(ps[k].name) && ps[k].text == Spell(ps[k].name) && ps[k].text != []
    requires forall k :: 0 <= k < |ps| && ps[k].name in env ==> '$' !in env[ps[k].name]
    ensures ExpandWith(Render(u), ps, env) ==
      if FirstUnbound(ps, env).Some? then Err(UnboundVariable(FirstUnbound(ps, env).value))
      else Ok(Render(Resolve(u, NamesOf(ps), env)))
    decreases |ps|
  {
    if ps == [] {
      ResolveNothing(u, env);
    } else if ps[0].name in env {
      var n := ps[0].name;
      assert Plain(n) && ps[0].text == Spell(n);
      assert '$' !in env[n];
      ReplaceRender(u, n, env[n]);
      SubstVarLoose(u, n, env[n]);
      assert forall k :: 0 <= k < |ps[1..]| ==> ps[1..][k] == ps[k + 1];
      ExpandRender(SubstVar(u, n, env[n]), ps[1..], env);
      ResolveAfterSubst(u, NamesOf(ps[1..]), n, env);
      assert NamesOf(ps) == NamesOf(ps[1..]) + {n};
    }
  }

  /** Every placeholder's name is among the names of the sequence. */
  lemma {:induction false} NamesOfHas(ps: seq<Placeholder>, k: nat)
    requires k < |ps|
    ensures ps[k].name in NamesOf(ps)
    decreases k
  {
    if k > 0 {
      NamesOfHas(ps[1..], k - 1);
    }
  }

  function VarNames(t: seq<Segment>): set<string>
  {
    NamesOf(Occurrences(t))
  }

  lemma {:induction false} ResolveSameNames(u: seq<Segment>, a: set<string>, b: set<string>, env: map<string, string>)
    requires forall m :: m in VarNames(u) ==> (m in a <==> m in b)
    ensures Resolve(u, a, env) == Resolve(u, b, env)
    decreases |u|
  {
    if u != [] {
      if u[0].Var? {
        assert Occurrences(u) == [Placeholder(Spell(u[0].name), u[0].name)] + Occurrences(u[1..]);
      }
      assert VarNames(u[1..]) <= VarNames(u);
      ResolveSameNames(u[1..], a, b, env);
    }
  }

  /** The reference expansion, stated with the same vocabulary as ExpandRender. */
  lemma {:induction false} FillResolve(t: seq<Segment>, env: map<string, string>)
    ensures Fill(t, env) ==
      if FirstUnbound(Occurrences(t), env).Some? then Err(UnboundVariable(FirstUnbound(Occurrences(t), env).value))
      else Ok(Render(Resolve(t, VarNames(t), env)))
    decreases |t|
  {
    if t != [] {
      FillResolve(t[1..], env);
      var r := t[1..];
      match t[0]
      case Text(x) =>
        assert Occurrences(t) == Occurrences(r);
      case Var(n) =>
        assert Occurrences(t) == [Placeholder(Spell(n), n)] + Occurrences(r);
        assert Occurrences(t)[1..] == Occurrences(r);
        ResolveSameNames(r, VarNames(t), VarNames(r), env);
    }
  }

  /** On a well-formed template, and while no value of a name the template
      uses itself contains '$', the code's expansion is the single-pass reference expansion: every `${NAME}`
      becomes `env[NAME]` and the first unbound NAME is fatal. */
  lemma TemplateExpansion(t: seq<Segment>, env: map<string, string>)
    requires WellFormed(t)
    requires forall n :: n in VarNames(t) && n in env ==> '$' !in env[n]
    ensures Expand(Render(t), env) == Fill(t, env)
  {
    forall k | 0 <= k < |Occurrences(t)| && Occurrences(t)[k].name in env
      ensures '$' !in env[Occurrences(t)[k].name]
    {
      NamesOfHas(Occurrences(t), k);
    }
    ScanRender(t);
    assert Loose(t) by {
      forall k | 0 <= k < |t| ensures if t[k].Text? then '$' !in t[k].chars else Plain(t[k].name) {
        assert Plain(if t[k].Text? then t[k].chars else t[k].name);
      }
    }
    assert forall k :: 0 <= k < |Occurrences(t)| ==>
      Plain(Occurrences(t)[k].name) && Occurrences(t)[k].text == Spell(Occurrences(t)[k].name) by {
      OccurrencesPlain(t);
    }
    ExpandRender(t, Occurrences(t), env);
    FillResolve(t, env);
  }

  lemma {:induction false} OccurrencesPlain(t: seq<Segment>)
    requires WellFormed(t)
    ensures forall k :: 0 <= k < |Occurrences(t)| ==>
      Plain(Occurrences(t)[k].name) && Occurrences(t)[k].text == Spell(Occurrences(t)[k].name)
    decreases |t|
  {
    if t != [] {
      WellFormedTail(t);
      OccurrencesPlain(t[1..]);
      if t[0].Var? {
        assert Plain(t[0].name);
      }
    }
  }

  /** The code does not expand in one pass: when the value of `${a}` is the
      text `${b}` and `${b}` also occurs in the original string, the value is
      expanded again, where the single-pass reading leaves it as it is. */
  lemma ValuesAreExpandedAgain(a: string, b: string, v: string)
    requires Plain(a) && Plain(b) && a != b && Plain(v)
    ensures Expand(Spell(a) + Spell(b), map[a := Spell(b), b := v]) == Ok(v + v)
    ensures Fill([Var(a), Var(b)], map[a := Spell(b), b := v]) == Ok(Spell(b) + v)
    ensures v + v != Spell(b) + v
  {
    var env := map[a := Spell(b), b := v];
    var pa, pb := Placeholder(Spell(a), a), Placeholder(Spell(b), b);
    assert Scan(Spell(a) + Spell(b)) == [pa, pb] by {
      var t := [Var(a), Var(b)];
      assert Render(t) == Spell(a) + Spell(b) by {
        assert Render(t[1..]) == Spell(b) + [];
      }
      assert WellFormed(t);
      ScanRender(t);
      assert Occurrences(t) == [pa] + Occurrences([Var(b)]) by { assert t[1..] == [Var(b)]; }
      assert Occurrences([Var(b)]) == [pb] + Occurrences([]) by { assert [Var(b)][1..] == []; }
    }
    var once := ReplaceAll(Spell(a) + Spell(b), Spell(a), Spell(b));
    assert once == Spell(b) + Spell(b) by {
      ReplaceSpell(a, a, Spell(b), Spell(b));
      assert Spell(b) == Spell(b) + [];
      ReplaceSpell(b, a, [], Spell(b));
    }
    assert ReplaceAll(once, Spell(b), v) == v + v by {
      var u := [Var(b), Var(b)];
      assert Render(u) == once by {
        assert Render(u[1..]) == Spell(b) + [];
      }
      assert Loose(u);
      assert '$' !in v;
      ReplaceRender(u, b, v);
      assert SubstVar(u, b, v) == [Text(v), Text(v)] by {
        assert u[1..] == [Var(b)] && [Var(b)][1..] == [];
        assert SubstVar([Var(b)], b, v) == [Text(v)];
      }
      assert Render([Text(v), Text(v)]) == v + (v + []) by {
        assert [Text(v), Text(v)][1..] == [Text(v)] && [Text(v)][1..] == [];
      }
    }
    assert Expand(Spell(a) + Spell(b), env) == ExpandWith(once, [pb], env);
    assert Fill([Var(b)], env) == Ok(v + []) by {
      assert [Var(b)][1..] == [];
    }
    assert [Var(a), Var(b)][1..] == [Var(b)];
    assert v + [] == v;
    assert env[a] == Spell(b) && env[b] == v;
    if v == [] {
      assert |v + v| < |Spell(b) + v|;
    } else {
      assert (v + v)[0] != (Spell(b) + v)[0];
    }
  }

  /** The group stops only at '{', so text after the intended name up to the
      last '}' becomes part of the name. */
  lemma NameMayHoldCloseBrace()
    ensures Scan("${A}/x}") == [Placeholder("${A}/x}", "A}/x")]
    ensures Expand("${A}/x}", map["A" := "home"]) == Err(UnboundVariable("A}/x"))
  {
    var s := "${A}/x}";
    var body := s[2..];
    assert body == "A}/x}";
    assert forall k :: 0 <= k < |body| ==> body[k] != '{';
    OpenFreeLenAfter(body, []);
    assert body + [] == body;
    assert body[..OpenFreeLen(body)] == body;
    assert LastClose(body) == Some(4);
    assert MatchLen(s) == Some(7);
    assert s[..7] == s && s[2..6] == "A}/x" && s[7..] == [];
    assert Scan(s) == [Placeholder(s, "A}/x")] + Scan([]);
  }

  /** Replacing an earlier match throughout the string can consume the front
      of a later one: in `${A}${A}x}` the matches are `${A}` and `${A}x}`, yet
      replacing `${A}` everywhere leaves no `${A}x}` for the second match, so
      the binding of `A}x` is never used. */
  lemma ReplaceOvertakesLaterMatch()
    ensures Scan("${A}${A}x}") == [Placeholder("${A}", "A"), Placeholder("${A}x}", "A}x")]
    ensures Expand("${A}${A}x}", map["A" := "v", "A}x" := "w"]) == Ok("vvx}")
  {
    var s := "${A}${A}x}";
    var p1, p2 := Placeholder("${A}", "A"), Placeholder("${A}x}", "A}x");
    OvertakeScan();
    var env := map["A" := "v", "A}x" := "w"];
    assert ExpandWith(s, [p1, p2], env) == ExpandWith("vvx}", [p2], env) by {
      OvertakeReplace();
      assert [p1, p2][1..] == [p2];
    }
    assert ExpandWith("vvx}", [p2], env) == Ok("vvx}") by {
      assert ReplaceAll("vvx}", "${A}x}", "w") == "vvx}";
      assert [p2][1..] == [];
    }
  }

  /** The two matches of `${A}${A}x}`. */
  lemma OvertakeScan()
    ensures Scan("${A}${A}x}") == [Placeholder("${A}", "A"), Placeholder("${A}x}", "A}x")]
  {
    var s, head, tail := "${A}${A}x}", "${A}", "${A}x}";
    assert s == head + tail;
    assert s[..4] == head && s[4..] == tail by { assert |head| == 4; }
    assert s[2..3] == "A" by { assert s[2..3] == head[2..3]; }
    OvertakeHeadMatch();
    assert Scan(s) == [Placeholder(head, "A")] + Scan(tail);
    OvertakeTailScan();
  }

  /** The first match of `${A}${A}x}` is `${A}`: the group backs off to the first `}`. */
  lemma OvertakeHeadMatch()
    ensures MatchLen("${A}${A}x}") == Some(4)
  {
    var bs := "A}${A}x}";
    assert bs == "A}$" + "{A}x}";
    OpenFreeLenAfter("A}$", "{A}x}");
    assert bs[..OpenFreeLen(bs)] == "A}$";
    assert "A}$" == "A}" + "$";
    LastCloseAfter("A}", "$");
    assert LastClose("A}") == Some(1);
    assert "${A}${A}x}"[2..] == bs;
  }

  /** What is left after that match is one match, named `A}x`. */
  lemma OvertakeTailScan()
    ensures Scan("${A}x}") == [Placeholder("${A}x}", "A}x")]
  {
    var t := "${A}x}";
    var bt := t[2..];
    assert bt == "A}x}" && forall k :: 0 <= k < |bt| ==> bt[k] != '{';
    OpenFreeLenAfter(bt, []);
    assert bt + [] == bt && bt[..OpenFreeLen(bt)] == bt;
    assert LastClose(bt) == Some(3);
    assert MatchLen(t) == Some(6);
    assert t[..6] == t && t[2..5] == "A}x" && t[6..] == [];
    assert Scan(t) == [Placeholder(t, "A}x")] + Scan([]);
  }

  /** Replacing `${A}` everywhere also rewrites the front of the second match. */
  lemma OvertakeReplace()
    ensures ReplaceAll("${A}${A}x}", "${A}", "v") == "vvx}"
  {
    assert ReplaceAll("x}", "${A}", "v") == "x}";
    var t := "${A}x}";
    assert t[..4] == "${A}" && t[4..] == "x}";
    assert ReplaceAll(t, "${A}", "v") == "vx}";
    var s := "${A}${A}x}";
    assert s[..4] == "${A}" && s[4..] == t;
  }
}

=== FILE: files.dfy ===
/** `FilesConfig`: origin files copied to targets whose paths may hold
    `${NAME}` placeholders, each classified once against the filesystem as
    it was when the configuration was loaded. */
module Files {
  import opened Common
  import opened Shell
  import opened Environment

  /** `ACTION_CREATED`, `ACTION_UPDATED` and `ACTION_NONE`. */
  datatype Action = Created | Updated | NoChange

  /** One entry of `FilesConfig.files`. */
  datatype FileRecord = FileRecord(origin: string, content: string, target: string, action: Action)

  /** How a target compares with the content it should hold: missing, holding
      something else, or already up to date. */
  function Classify(content: string, target: string, fs: map<string, string>): (a: Action)
    ensures a == Created <==> target !in fs
    ensures a == Updated <==> target in fs && fs[target] != content
    ensures a == NoChange <==> target in fs && fs[target] == content
  {
    if target !in fs then Created
    else if fs[target] != content then Updated
    else NoChange
  }

  /** The body of the loop in `FilesConfig.__init__` for one pair: expand the
      target, then read the origin (an unreadable origin ends the run whether
      or not the target exists). */
  function RecordFor(origin: string, target: string, env: map<string, string>, fs: map<string, string>)
    : (r: Result<FileRecord, Fatal>)
    ensures Expand(target, env).Err? ==> r == Err(Expand(target, env).error)
    ensures Expand(target, env).Ok? && origin !in fs ==> r == Err(UnreadableOrigin(origin))
    ensures r.Ok? <==> Expand(target, env).Ok? && origin in fs
    ensures r.Ok? ==>
      && r.value.origin == origin
      && r.value.content == fs[origin]
      && r.value.target == Expand(target, env).value
      && (r.value.action == Created <==> r.value.target !in fs)
      && (r.value.action == NoChange <==> r.value.target in fs && fs[r.value.target] == fs[origin])
  {
    match Expand(target, env)
    case Err(e) => Err(e)
    case Ok(path) =>
      if origin !in fs then Err(UnreadableOrigin(origin))
      else Ok(FileRecord(origin, fs[origin], path, Classify(fs[origin], path, fs)))
  }

  /** `FilesConfig.__init__`: every pair in order; the first failure ends the run. */
  function ClassifyAll(pairs: seq<(string, string)>, env: map<string, string>, fs: map<string, string>)
    : Result<seq<FileRecord>, Fatal>
    decreases |pairs|
  {
    if pairs == [] then Ok([])
    else
      match RecordFor(pairs[0].0, pairs[0].1, env, fs)
      case Err(e) => Err(e)
      case Ok(rec) =>
        match ClassifyAll(pairs[1..], env, fs)
        case Err(e) => Err(e)
        case Ok(recs) => Ok([rec] + recs)
  }

  /** The index of the first pair whose record cannot be built, if any. */
  function FirstFailure(pairs: seq<(string, string)>, env: map<string, string>, fs: map<string, string>)
    : (k: Option<nat>)
    ensures k.Some? ==> k.value < |pairs| && RecordFor(pairs[k.value].0, pairs[k.value].1, env, fs).Err?
    ensures k.Some? ==> forall j :: 0 <= j < k.value ==> RecordFor(pairs[j].0, pairs[j].1, env, fs).Ok?
    ensures k.None? <==> forall j :: 0 <= j < |pairs| ==> RecordFor(pairs[j].0, pairs[j].1, env, fs).Ok?
    decreases |pairs|
  {
    if pairs == [] then None
    else if RecordFor(pairs[0].0, pairs[0].1, env, fs).Err? then Some(0)
    else
      match FirstFailure(pairs[1..], env, fs)
      case None => None
      case Some(k) => Some(k + 1)
  }

  /** Loading the files of an entry succeeds iff every pair can be built, and
      then holds one record per pair, in order; otherwise it fails with the
      error of the first pair that cannot be built. */
  lemma {:induction false} ClassifyAllPointwise(pairs: seq<(string, string)>, env: map<string, string>, fs: map<string, string>)
    ensures var r, k := ClassifyAll(pairs, env, fs), FirstFailure(pairs, env, fs);
      && (r.Ok? <==> k.None?)
      && (r.Ok? ==> |r.value| == |pairs|)
      && (r.Ok? ==> forall j :: 0 <= j < |pairs| ==> Ok(r.value[j]) == RecordFor(pairs[j].0, pairs[j].1, env, fs))
      && (r.Err? ==> r.error == RecordFor(pairs[k.value].0, pairs[k.value].1, env, fs).error)
    decreases |pairs|
  {
    if pairs != [] {
      ClassifyAllPointwise(pairs[1..], env, fs);
      var r := ClassifyAll(pairs, env, fs);
      if r.Ok? && RecordFor(pairs[0].0, pairs[0].1, env, fs).Ok? {
        var tail := ClassifyAll(pairs[1..], env, fs);
        forall j | 0 <= j < |pairs|
          ensures Ok(r.value[j]) == RecordFor(pairs[j].0, pairs[j].1, env, fs)
        {
          if j > 0 {
            assert r.value[j] == tail.value[j - 1];
            assert pairs[j] == pairs[1..][j - 1];
          }
        }
      }
    }
  }

  /** `FilesConfig.__init__`: the loop over the pairs. */
  method NewFilesConfig(pairs: seq<(string, string)>, env: map<string, string>, host: Host)
    returns (r: Result<seq<FileRecord>, Fatal>)
    ensures r == ClassifyAll(pairs, env, host.fs)
  {
    var files: seq<FileRecord> := [];
    assert pairs[0..] == pairs;
    match ClassifyAll(pairs, env, host.fs) {
      case Ok(recs) => assert [] + recs == recs;
      case Err(_) =>
    }
    for k := 0 to |pairs|
      invariant ClassifyAll(pairs, env, host.fs) == Prepend(files, ClassifyAll(pairs[k..], env, host.fs))
    {
      var origin := pairs[k].0;
      var target := Substitute(pairs[k].1, env);
      var rec: Result<FileRecord, Fatal>;
      match target {
        case Err(e) =>
          rec := Err(e);
        case Ok(path) =>
          if origin !in host.fs {
            rec := Err(UnreadableOrigin(origin));
          } else {
            var content := host.fs[origin];
            rec := Ok(FileRecord(origin, content, path, Classify(content, path, host.fs)));
          }
      }
      assert rec == RecordFor(pairs[k].0, pairs[k].1, env, host.fs);
      assert pairs[k..][0] == pairs[k] && pairs[k..][1..] == pairs[k + 1..];
      if rec.Err? {
        assert ClassifyAll(pairs[k..], env, host.fs) == Err(rec.error);
        return Err(rec.error);
      }
      PrependStep(files, rec.value, ClassifyAll(pairs[k + 1..], env, host.fs));
      files := files + [rec.value];
    }
    assert pairs[|pairs|..] == [] && files + [] == files;
    r := Ok(files);
  }

  /** `done` in front of the records of the remaining pairs, or their error. */
  function Prepend(done: seq<FileRecord>, rest: Result<seq<FileRecord>, Fatal>): Result<seq<FileRecord>, Fatal>
  {
    match rest
    case Err(e) => Err(e)
    case Ok(recs) => Ok(done + recs)
  }

  lemma PrependStep(done: seq<FileRecord>, rec: FileRecord, rest: Result<seq<FileRecord>, Fatal>)
    ensures Prepend(done, Prepend([rec], rest)) == Prepend(done + [rec], rest)
  {
    if rest.Ok? {
      assert done + ([rec] + rest.value) == (done + [rec]) + rest.value;
    }
  }

  /** Whether `write_files` writes the record's target. */
  predicate Writes(r: FileRecord)
  {
    r.action != NoChange
  }

  /** The filesystem after writing one record. */
  function ApplyRecord(fs: map<string, string>, r: FileRecord): map<string, string>
  {
    if Writes(r) then fs[r.target := r.content] else fs
  }

  /** The filesystem after `write_files`: every record in order. */
  function ApplyRecords(fs: map<string, string>, recs: seq<FileRecord>): map<string, string>
    decreases |recs|
  {
    if recs == [] then fs
    else ApplyRecord(ApplyRecords(fs, recs[..|recs| - 1]), recs[|recs| - 1])
  }

  /** The content of the last record that writes `path`, if any. */
  function LastWrite(recs: seq<FileRecord>, path: string): (w: Option<string>)
    ensures w.None? <==> forall k :: 0 <= k < |recs| ==> !(Writes(recs[k]) && recs[k].target == path)
    decreases |recs|
  {
    if recs == [] then None
    else
      var r := recs[|recs| - 1];
      if Writes(r) && r.target == path then Some(r.content)
      else
        var w := LastWrite(recs[..|recs| - 1], path);
        assert forall k :: 0 <= k < |recs| - 1 ==> recs[..|recs| - 1][k] == recs[k];
        w
  }

  /** After `write_files` every path holds what the last record writing it
      wrote, and every other path is as it was: the last writer wins. */
  lemma {:induction false} ApplyRecordsLastWriter(fs: map<string, string>, recs: seq<FileRecord>, path: string)
    ensures var after, w := ApplyRecords(fs, recs), LastWrite(recs, path);
      && (path in after <==> path in fs || w.Some?)
      && (w.Some? ==> after[path] == w.value)
      && (w.None? && path in fs ==> after[path] == fs[path])
    decreases |recs|
  {
    if recs != [] {
      ApplyRecordsLastWriter(fs, recs[..|recs| - 1], path);
    }
  }

  /** Writing the files removes none. */
  lemma {:induction false} ApplyRecordsGrows(fs: map<string, string>, recs: seq<FileRecord>)
    ensures fs.Keys <= ApplyRecords(fs, recs).Keys
    decreases |recs|
  {
    if recs != [] {
      ApplyRecordsGrows(fs, recs[..|recs| - 1]);
    }
  }

  /** With distinct targets, a written target holds exactly its own record's
      content. */
  lemma LastWriteDistinct(recs: seq<FileRecord>, k: nat)
    requires k < |recs| && Writes(recs[k])
    requires forall i, j :: 0 <= i < j < |recs| ==> recs[i].target != recs[j].target
    ensures LastWrite(recs, recs[k].target) == Some(recs[k].content)
    decreases |recs|
  {
    if k < |recs| - 1 {
      LastWriteDistinct(recs[..|recs| - 1], k);
    }
  }

  /** `write_files`. */
  method WriteFiles(recs: seq<FileRecord>, host: Host)
    modifies host
    ensures host.fs == ApplyRecords(old(host.fs), recs)
    ensures host.log == old(host.log)
  {
    for i := 0 to |recs|
      invariant host.fs == ApplyRecords(old(host.fs), recs[..i])
      invariant host.log == old(host.log)
    {
      assert recs[..i + 1][..i] == recs[..i];
      var r := recs[i];
      match r.action {
        case Created =>
          host.Write(r.target, r.content);
        case Updated =>
          host.Write(r.target, r.content);
        case NoChange =>
      }
    }
    assert recs[..|recs|] == recs;
  }

  /** The records as a second load would classify them. */
  function Settled(recs: seq<FileRecord>): (s: seq<FileRecord>)
    ensures |s| == |recs|
    ensures forall k :: 0 <= k < |recs| ==> s[k] == recs[k].(action := NoChange)
  {
    seq(|recs|, k requires 0 <= k < |recs| => recs[k].(action := NoChange))
  }

  /** Writing the files reaches a fixed point: when targets are distinct and
      no origin is itself a target that gets written, loading the same pairs
      again against the new filesystem finds every target up to date. */
  lemma Idempotent(pairs: seq<(string, string)>, env: map<string, string>, fs: map<string, string>)
    requires ClassifyAll(pairs, env, fs).Ok?
    requires var recs := ClassifyAll(pairs, env, fs).value;
      forall i, j :: 0 <= i < j < |recs| ==> recs[i].target != recs[j].target
    requires var recs := ClassifyAll(pairs, env, fs).value;
      forall i, j :: 0 <= i < |recs| && 0 <= j < |recs| && Writes(recs[j]) ==> recs[i].origin != recs[j].target
    ensures var recs := ClassifyAll(pairs, env, fs).value;
      ClassifyAll(pairs, env, ApplyRecords(fs, recs)) == Ok(Settled(recs))
  {
    var recs := ClassifyAll(pairs, env, fs).value;
    var after := ApplyRecords(fs, recs);
    ClassifyAllPointwise(pairs, env, fs);
    forall j | 0 <= j < |pairs|
      ensures Ok(Settled(recs)[j]) == RecordFor(pairs[j].0, pairs[j].1, env, after)
    {
      SettledRecord(pairs, env, fs, recs, j);
    }
    ClassifyAllPointwise(pairs, env, after);
    SettledFromPointwise(pairs, env, after, Settled(recs));
  }

  /** One pair of `Idempotent`: its origin is untouched and its target holds
      the origin's content. */
  lemma SettledRecord(pairs: seq<(string, string)>, env: map<string, string>, fs: map<string, string>,
                      recs: seq<FileRecord>, j: nat)
    requires |recs| == |pairs| && j < |pairs|
    requires forall i :: 0 <= i < |pairs| ==> Ok(recs[i]) == RecordFor(pairs[i].0, pairs[i].1, env, fs)
    requires forall i, k :: 0 <= i < k < |recs| ==> recs[i].target != recs[k].target
    requires forall i, k :: 0 <= i < |recs| && 0 <= k < |recs| && Writes(recs[k]) ==> recs[i].origin != recs[k].target
    ensures Ok(recs[j].(action := NoChange)) == RecordFor(pairs[j].0, pairs[j].1, env, ApplyRecords(fs, recs))
  {
    var after := ApplyRecords(fs, recs);
    var r := recs[j];
    assert r.origin == pairs[j].0 && r.content == fs[r.origin];
    ApplyRecordsLastWriter(fs, recs, r.origin);
    assert LastWrite(recs, r.origin).None?;
    assert after[r.origin] == r.content;
    ApplyRecordsLastWriter(fs, recs, r.target);
    if Writes(r) {
      LastWriteDistinct(recs, j);
    } else {
      assert LastWrite(recs, r.target).None?;
    }
    assert r.target in after && after[r.target] == r.content;
  }

  /** A result built record by record is the result of the whole load. */
  lemma SettledFromPointwise(pairs: seq<(string, string)>, env: map<string, string>, fs: map<string, string>,
                             recs: seq<FileRecord>)
    requires |recs| == |pairs|
    requires forall j :: 0 <= j < |pairs| ==> Ok(recs[j]) == RecordFor(pairs[j].0, pairs[j].1, env, fs)
    requires var r := ClassifyAll(pairs, env, fs);
      r.Ok? ==> |r.value| == |pairs| && forall j :: 0 <= j < |pairs| ==> Ok(r.value[j]) == RecordFor(pairs[j].0, pairs[j].1, env, fs)
    requires ClassifyAll(pairs, env, fs).Ok? <==> FirstFailure(pairs, env, fs).None?
    ensures ClassifyAll(pairs, env, fs) == Ok(recs)
  {
    var r := ClassifyAll(pairs, env, fs);
    assert FirstFailure(pairs, env, fs).None?;
    assert r.value == recs;
  }
}

=== FILE: install.dfy ===
/** `InstallConfig`: one package, installed either from a repository or from
    a remote RPM file, and only when its `if_fail` probe command fails. */
module Install {
  import opened Common
  import opened Shell

  /** The `install` mapping of an entry as parsed: `if_fail` is read with
      `data["if_fail"]`, the three other keys with `data.get(...)`. */
  datatype RawInstall = RawInstall(
    ifFail: Option<string>,
    repo: Option<string>,
    fromRepo: Option<string>,
    fromRemote: Option<string>)

  /** A constructed `InstallConfig`. */
  datatype InstallConfig = InstallConfig(
    ifFail: string,
    repo: Option<string>,
    fromRepo: Option<string>,
    fromRemote: Option<string>)

  /** Python truthiness of an optional string: present and not empty. */
  predicate Truthy(o: Option<string>)
  {
    o.Some? && o.value != []
  }

  predicate EndsWith(s: string, suffix: string)
  {
    |suffix| <= |s| && s[|s| - |suffix|..] == suffix
  }

  /** The invariant every constructed configuration satisfies. */
  predicate Valid(c: InstallConfig)
  {
    && '\n' !in c.ifFail
    && Truthy(c.fromRepo) != Truthy(c.fromRemote)
    && (Truthy(c.fromRemote) ==> EndsWith(c.fromRemote.value, ".rpm"))
  }

  /** `InstallConfig.__init__`: the checks run in this order and the first
      that fails ends the run. */
  function NewInstallConfig(raw: RawInstall): (r: Result<InstallConfig, Fatal>)
    ensures r.Ok? <==>
      && raw.ifFail.Some?
      && '\n' !in raw.ifFail.value
      && Truthy(raw.fromRepo) != Truthy(raw.fromRemote)
      && (Truthy(raw.fromRemote) ==> EndsWith(raw.fromRemote.value, ".rpm"))
    ensures r.Ok? ==> Valid(r.value)
    ensures r.Ok? ==> r.value == InstallConfig(raw.ifFail.value, raw.repo, raw.fromRepo, raw.fromRemote)
    ensures raw.ifFail.None? ==> r == Err(MissingKey("if_fail"))
    ensures raw.ifFail.Some? && '\n' in raw.ifFail.value ==> r == Err(MultilineProbe)
    ensures r.Err? && raw.ifFail.Some? && '\n' !in raw.ifFail.value ==>
      r == if Truthy(raw.fromRepo) == Truthy(raw.fromRemote) then Err(NotExactlyOneSource) else Err(RemoteNotRpm)
  {
    match raw.ifFail
    case None => Err(MissingKey("if_fail"))
    case Some(probe) =>
      if '\n' in probe then Err(MultilineProbe)
      else if Truthy(raw.fromRepo) == Truthy(raw.fromRemote) then Err(NotExactlyOneSource)
      else if Truthy(raw.fromRemote) && !EndsWith(raw.fromRemote.value, ".rpm") then Err(RemoteNotRpm)
      else Ok(InstallConfig(probe, raw.repo, raw.fromRepo, raw.fromRemote))
  }

  const AddRepoWords: seq<string> := ["sudo", "dnf", "config-manager", "-y", "--add-repo"]
  const DnfInstallWords: seq<string> := ["sudo", "dnf", "install", "-y"]

  /** `sudo dnf config-manager -y --add-repo <repo>` as one command line. */
  function AddRepoCommand(repo: string): string
  {
    Join(AddRepoWords + [repo], ' ')
  }

  /** `sudo dnf install -y <spec>` as one command line. */
  function DnfInstallCommand(spec: string): string
  {
    Join(DnfInstallWords + [spec], ' ')
  }

  /** The add-repo command line, character for character. */
  lemma AddRepoCommandText(repo: string)
    ensures AddRepoCommand(repo) == "sudo dnf config-manager -y --add-repo " + repo
  {
    AddRepoJoin(repo);
    AddRepoPrefix();
  }

  lemma AddRepoJoin(repo: string)
    ensures AddRepoCommand(repo) ==
      ("sudo" + [' '] + "dnf" + [' '] + "config-manager" + [' '] + "-y" + [' '] + "--add-repo" + [' ']) + repo
  {
    var line := AddRepoCommand(repo);
    assert line == "sudo" + [' '] + ("dnf" + [' '] + ("config-manager" + [' '] + ("-y" + [' '] + ("--add-repo" + [' '] + repo)))) by {
      JoinCons("sudo", ["dnf", "config-manager", "-y", "--add-repo", repo], ' ');
      JoinCons("dnf", ["config-manager", "-y", "--add-repo", repo], ' ');
      JoinCons("config-manager", ["-y", "--add-repo", repo], ' ');
      JoinCons("-y", ["--add-repo", repo], ' ');
      JoinCons("--add-repo", [repo], ' ');
      assert AddRepoWords + [repo] == ["sudo"] + ["dnf", "config-manager", "-y", "--add-repo", repo];
    }
  }

  lemma AddRepoPrefix()
    ensures "sudo dnf config-manager -y --add-repo " ==
      "sudo" + [' '] + "dnf" + [' '] + "config-manager" + [' '] + "-y" + [' '] + "--add-repo" + [' ']
  {
  }

  /** The install command line, character for character. */
  lemma DnfInstallCommandText(spec: string)
    ensures DnfInstallCommand(spec) == "sudo dnf install -y " + spec
  {
    var line := DnfInstallCommand(spec);
    assert line == "sudo" + [' '] + ("dnf" + [' '] + ("install" + [' '] + ("-y" + [' '] + spec))) by {
      JoinCons("sudo", ["dnf", "install", "-y", spec], ' ');
      JoinCons("dnf", ["install", "-y", spec], ' ');
      JoinCons("install", ["-y", spec], ' ');
      JoinCons("-y", [spec], ' ');
      assert DnfInstallWords + [spec] == ["sudo"] + ["dnf", "install", "-y", spec];
    }
    assert line == ("sudo" + [' '] + "dnf" + [' '] + "install" + [' '] + "-y" + [' ']) + spec;
    assert "sudo dnf install -y " == "sudo" + [' '] + "dnf" + [' '] + "install" + [' '] + "-y" + [' '];
  }

  /** The argument vector of the add-repo command: five fixed words, then the
      repository split on spaces. */
  lemma AddRepoArgv(repo: string)
    ensures Argv(AddRepoCommand(repo)) == AddRepoWords + Argv(repo)
  {
    SplitLeadingWords(AddRepoWords, repo, ' ');
  }

  /** The argument vector of the install command: four fixed words, then the
      package spec split on spaces. */
  lemma DnfInstallArgv(spec: string)
    ensures Argv(DnfInstallCommand(spec)) == DnfInstallWords + Argv(spec)
  {
    SplitLeadingWords(DnfInstallWords, spec, ' ');
  }

  /** The last piece of a join is a suffix of it, preceded by the separator
      unless it is the whole string. */
  lemma {:induction false} JoinLast(parts: seq<string>, sep: char)
    requires |parts| >= 1
    ensures var s, last := Join(parts, sep), parts[|parts| - 1];
      EndsWith(s, last) && (s == last || s[|s| - |last| - 1] == sep)
    decreases |parts|
  {
    if |parts| > 1 {
      JoinLast(parts[1..], sep);
      var rest := Join(parts[1..], sep);
      assert Join(parts, sep) == (parts[0] + [sep]) + rest;
    }
  }

  /** `url.split("/")[-1]`: the text after the last '/'. */
  function FileName(url: string): (name: string)
    ensures '/' !in name
    ensures EndsWith(url, name)
    ensures name == url || url[|url| - |name| - 1] == '/'
  {
    var parts := Split(url, '/');
    SplitJoin(url, '/');
    JoinLast(parts, '/');
    parts[|parts| - 1]
  }

  /** Where the downloaded RPM is stored before it is installed. */
  function TempPath(url: string): string
  {
    "/tmp/" + FileName(url)
  }

  /** `dnf install -y spec`; a failure ends the run with the command's stderr. */
  function DnfInstall(s: State, o: Oracle, spec: string): Step
  {
    var r := RunCommand(s, o, DnfInstallCommand(spec));
    Step(r.state, if r.status then Done else Abort(InstallFailed(r.output)))
  }

  /** `__install_from_repo`, with the add-repo failure reported as the
      message intends: the repository and the command's output. */
  function FromRepoSpec(c: InstallConfig, s: State, o: Oracle): (r: Step)
    requires c.fromRepo.Some?
    ensures r.state.fs == s.fs
    ensures Truthy(c.repo) && o.exec(|s.log|).exitCode != 0 ==>
      r.outcome == Abort(AddRepoFailed(c.repo.value, o.exec(|s.log|).stderr))
  {
    if Truthy(c.repo) then
      var added := RunCommand(s, o, AddRepoCommand(c.repo.value));
      if !added.status then Step(added.state, Abort(AddRepoFailed(c.repo.value, added.output)))
      else DnfInstall(added.state, o, c.fromRepo.value)
    else DnfInstall(s, o, c.fromRepo.value)
  }

  /** `__install_from_repo` as written: the failure message reads `output`
      before the function has assigned it, so Python raises UnboundLocalError. */
  function FromRepoAsWritten(c: InstallConfig, s: State, o: Oracle): (r: Step)
    requires c.fromRepo.Some?
    ensures r.state.fs == s.fs
    ensures Truthy(c.repo) && o.exec(|s.log|).exitCode != 0 ==> r.outcome == Abort(UnboundLocal("output"))
  {
    if Truthy(c.repo) then
      var added := RunCommand(s, o, AddRepoCommand(c.repo.value));
      if !added.status then Step(added.state, Abort(UnboundLocal("output")))
      else DnfInstall(added.state, o, c.fromRepo.value)
    else DnfInstall(s, o, c.fromRepo.value)
  }

  /** The two versions issue the same commands and abort in the same places;
      only a failed add-repo differs, where the code as written loses the
      repository and the command's output. */
  lemma AddRepoFailureLosesOutput(c: InstallConfig, s: State, o: Oracle)
    requires c.fromRepo.Some?
    ensures FromRepoAsWritten(c, s, o).state == FromRepoSpec(c, s, o).state
    ensures FromRepoAsWritten(c, s, o).outcome.Done? <==> FromRepoSpec(c, s, o).outcome.Done?
    ensures FromRepoAsWritten(c, s, o) != FromRepoSpec(c, s, o) <==>
      Truthy(c.repo) && o.exec(|s.log|).exitCode != 0
    ensures Truthy(c.repo) && o.exec(|s.log|).exitCode != 0 ==>
      && FromRepoAsWritten(c, s, o).outcome == Abort(UnboundLocal("output"))
      && FromRepoSpec(c, s, o).outcome == Abort(AddRepoFailed(c.repo.value, o.exec(|s.log|).stderr))
  {
  }

  /** `__install_from_remote_file`: download, store under /tmp, install. */
  function FromRemoteSpec(c: InstallConfig, s: State, o: Oracle): Step
    requires c.fromRemote.Some?
  {
    var url := c.fromRemote.value;
    var (fetched, res) := HttpGet(s, o, url);
    if res.status != 200 then Step(fetched, Abort(DownloadFailed(url, res.text)))
    else DnfInstall(State(fetched.fs[TempPath(url) := res.content], fetched.log), o, TempPath(url))
  }

  /** `install`: run the probe; on failure take the repository path when
      `install_from_repo` is truthy and the remote-file path otherwise (the
      `elif` tests a bound method, which is always true). */
  function InstallSpec(c: InstallConfig, s: State, o: Oracle): Step
    requires Valid(c)
  {
    var probe := RunCommand(s, o, c.ifFail);
    if probe.status then Step(probe.state, Done)
    else if Truthy(c.fromRepo) then FromRepoSpec(c, probe.state, o)
    else FromRemoteSpec(c, probe.state, o)
  }

  /** The command line of the probe, as logged. */
  function ProbeCall(c: InstallConfig): Call
  {
    Exec(Argv(c.ifFail))
  }

  /** A probe that exits with 0 means the package is there: only the probe
      is issued and nothing changes on disk. */
  lemma SatisfiedProbeInstallsNothing(c: InstallConfig, s: State, o: Oracle)
    requires Valid(c) && o.exec(|s.log|).exitCode == 0
    ensures InstallSpec(c, s, o) == Step(State(s.fs, s.log + [ProbeCall(c)]), Done)
  {
  }

  /** The repository path: the probe, then the add-repo command exactly when
      `repo` is truthy, then the install command unless add-repo failed; the
      run goes on only if every command succeeded. */
  lemma RepoPathCommands(c: InstallConfig, s: State, o: Oracle)
    requires Valid(c) && o.exec(|s.log|).exitCode != 0 && Truthy(c.fromRepo)
    ensures var r := InstallSpec(c, s, o);
      var n := |s.log|;
      var addRepo := if Truthy(c.repo) then [Exec(Argv(AddRepoCommand(c.repo.value)))] else [];
      var addFailed := Truthy(c.repo) && o.exec(n + 1).exitCode != 0;
      var install := if addFailed then [] else [Exec(Argv(DnfInstallCommand(c.fromRepo.value)))];
      && r.state.fs == s.fs
      && r.state.log == s.log + [ProbeCall(c)] + addRepo + install
      && (r.outcome.Done? <==> !addFailed && o.exec(n + 1 + |addRepo|).exitCode == 0)
  {
  }

  /** The remote-file path: the probe, the download, and, when the status is
      200, the body stored at /tmp/<file name> and the install of that path. */
  lemma RemotePathCommands(c: InstallConfig, s: State, o: Oracle)
    requires Valid(c) && o.exec(|s.log|).exitCode != 0 && !Truthy(c.fromRepo)
    ensures c.fromRemote.Some?
    ensures var r := InstallSpec(c, s, o);
      var n := |s.log|;
      var url := c.fromRemote.value;
      var res := o.fetch(n + 1);
      && (res.status != 200 ==>
            r == Step(State(s.fs, s.log + [ProbeCall(c), Get(url)]), Abort(DownloadFailed(url, res.text))))
      && (res.status == 200 ==>
            && r.state.fs == s.fs[TempPath(url) := res.content]
            && r.state.log == s.log + [ProbeCall(c), Get(url), Exec(Argv(DnfInstallCommand(TempPath(url))))]
            && (r.outcome.Done? <==> o.exec(n + 2).exitCode == 0))
  {
  }

  /** Installing touches the filesystem at most at the temporary RPM path. */
  lemma InstallFrame(c: InstallConfig, s: State, o: Oracle, path: string)
    requires Valid(c)
    requires !Truthy(c.fromRemote) || path != TempPath(c.fromRemote.value)
    ensures path in InstallSpec(c, s, o).state.fs <==> path in s.fs
    ensures path in s.fs ==> InstallSpec(c, s, o).state.fs[path] == s.fs[path]
  {
    var probe := RunCommand(s, o, c.ifFail);
    assert probe.state.fs == s.fs;
    if !probe.status {
      if Truthy(c.fromRepo) {
        assert FromRepoSpec(c, probe.state, o).state.fs == s.fs;
      } else {
        var fetched := HttpGet(probe.state, o, c.fromRemote.value).0;
        assert fetched.fs == s.fs;
      }
    }
  }

  /** Installing removes no file and only appends to the log. */
  lemma InstallKeepsFiles(c: InstallConfig, s: State, o: Oracle)
    requires Valid(c)
    ensures s.fs.Keys <= InstallSpec(c, s, o).state.fs.Keys
    ensures s.log <= InstallSpec(c, s, o).state.log
  {
  }

  /** `should_be_installed`: true iff the probe did not exit with 0. */
  method ShouldBeInstalled(c: InstallConfig, host: Host) returns (needed: bool)
    modifies host
    ensures needed <==> host.oracle.exec(|old(host.log)|).exitCode != 0
    ensures host.Snapshot() == RunCommand(old(host.Snapshot()), host.oracle, c.ifFail).state
  {
    var status, output := host.Run(c.ifFail);
    needed := !status;
  }

  method InstallRpm(spec: string, host: Host) returns (outcome: Outcome)
    modifies host
    ensures Step(host.Snapshot(), outcome) == DnfInstall(old(host.Snapshot()), host.oracle, spec)
  {
    var status, output := host.Run(DnfInstallCommand(spec));
    outcome := if status then Done else Abort(InstallFailed(output));
  }

  method InstallFromRepo(c: InstallConfig, host: Host) returns (outcome: Outcome)
    requires c.fromRepo.Some?
    modifies host
    ensures Step(host.Snapshot(), outcome) == FromRepoSpec(c, old(host.Snapshot()), host.oracle)
  {
    if Truthy(c.repo) {
      var status, output := host.Run(AddRepoCommand(c.repo.value));
      if !status {
        return Abort(AddRepoFailed(c.repo.value, output));
      }
    }
    outcome := InstallRpm(c.fromRepo.value, host);
  }

  method InstallFromRemoteFile(c: InstallConfig, host: Host) returns (outcome: Outcome)
    requires c.fromRemote.Some?
    modifies host
    ensures Step(host.Snapshot(), outcome) == FromRemoteSpec(c, old(host.Snapshot()), host.oracle)
  {
    var url := c.fromRemote.value;
    var res := host.Fetch(url);
    if res.status != 200 {
      return Abort(DownloadFailed(url, res.text));
    }
    var path := TempPath(url);
    host.Write(path, res.content);
    outcome := InstallRpm(path, host);
  }

  /** `install`. */
  method Install(c: InstallConfig, host: Host) returns (outcome: Outcome)
    requires Valid(c)
    modifies host
    ensures Step(host.Snapshot(), outcome) == InstallSpec(c, old(host.Snapshot()), host.oracle)
  {
    var needed := ShouldBeInstalled(c, host);
    if !needed {
      return Done;
    }
    if Truthy(c.fromRepo) {
      outcome := InstallFromRepo(c, host);
    } else {
      outcome := InstallFromRemoteFile(c, host);
    }
  }
}

=== FILE: plan.dfy ===
/** `Entry`: one named item of the configuration, its optional install
    configuration and its optional files, and the report of what applying it
    would change. */
module Plan {
  import opened Common
  import opened Shell
  import opened Install
  import opened Files

  /** An entry as parsed. `install` is None when the key is absent, null or
      an empty mapping (all falsy in the original); `files` lists the
      origin-to-target pairs of the `files` mapping in order, empty when the
      key is absent, null or empty. */
  datatype RawEntry = RawEntry(name: string, install: Option<RawInstall>, files: seq<(string, string)>)

  /** A constructed `Entry`. */
  datatype Entry = Entry(name: string, install: Option<InstallConfig>, files: Option<seq<FileRecord>>)

  predicate EntryValid(e: Entry)
  {
    e.install.Some? ==> Valid(e.install.value)
  }

  /** `Entry.__init__`: the install configuration is built first, then the
      files; the first failure ends the run. */
  function NewEntry(raw: RawEntry, env: map<string, string>, fs: map<string, string>): (r: Result<Entry, Fatal>)
    ensures r.Ok? ==> EntryValid(r.value) && r.value.name == raw.name
    ensures r.Ok? ==> (r.value.install.Some? <==> raw.install.Some?)
    ensures r.Ok? ==> (r.value.files.Some? <==> raw.files != [])
    ensures raw.install.Some? && NewInstallConfig(raw.install.value).Err? ==>
      r == Err(NewInstallConfig(raw.install.value).error)
    ensures r.Ok? <==>
      && (raw.install.Some? ==> NewInstallConfig(raw.install.value).Ok?)
      && (raw.files != [] ==> ClassifyAll(raw.files, env, fs).Ok?)
    ensures r.Ok? && raw.install.Some? ==> r.value.install == Some(NewInstallConfig(raw.install.value).value)
    ensures r.Ok? && raw.files != [] ==> r.value.files == Some(ClassifyAll(raw.files, env, fs).value)
    ensures (raw.install.Some? ==> NewInstallConfig(raw.install.value).Ok?) &&
            raw.files != [] && ClassifyAll(raw.files, env, fs).Err? ==>
      r == Err(ClassifyAll(raw.files, env, fs).error)
  {
    var install :=
      match raw.install
      case None => Ok(None)
      case Some(ri) =>
        match NewInstallConfig(ri)
        case Err(e) => Err(e)
        case Ok(c) => Ok(Some(c));
    if install.Err? then Err(install.error)
    else if raw.files == [] then Ok(Entry(raw.name, install.value, None))
    else
      match ClassifyAll(raw.files, env, fs)
      case Err(e) => Err(e)
      case Ok(recs) => Ok(Entry(raw.name, install.value, Some(recs)))
  }

  /** `Entry.__init__`. */
  method BuildEntry(raw: RawEntry, env: map<string, string>, host: Host) returns (r: Result<Entry, Fatal>)
    ensures r == NewEntry(raw, env, host.fs)
  {
    var install: Option<InstallConfig> := None;
    if raw.install.Some? {
      var c := NewInstallConfig(raw.install.value);
      if c.Err? {
        return Err(c.error);
      }
      install := Some(c.value);
    }
    if raw.files == [] {
      return Ok(Entry(raw.name, install, None));
    }
    var recs := NewFilesConfig(raw.files, env, host);
    if recs.Err? {
      return Err(recs.error);
    }
    r := Ok(Entry(raw.name, install, Some(recs.value)));
  }

  /** How `Entry.get_actions` names the package: the repository package when
      it is truthy, otherwise the remote file (`None` when there is none). */
  function PackageName(c: InstallConfig): (name: string)
    ensures Truthy(c.fromRepo) ==> name == c.fromRepo.value
    ensures !Truthy(c.fromRepo) && c.fromRemote.Some? ==> name == c.fromRemote.value
  {
    if Truthy(c.fromRepo) then c.fromRepo.value
    else if c.fromRemote.Some? then c.fromRemote.value
    else "None"
  }

  /** The line announcing the install of `c`. */
  function PackageLine(c: InstallConfig): string
  {
    "Package will be installed: " + PackageName(c)
  }

  /** The line announcing one file record, if it is written. */
  function FileLine(r: FileRecord): seq<string>
  {
    match r.action
    case Created => ["File will be created: " + r.target]
    case Updated => ["File will be updated: " + r.target]
    case NoChange => []
  }

  /** The lines announcing the file records, in order. */
  function FileLines(recs: seq<FileRecord>): seq<string>
    decreases |recs|
  {
    if recs == [] then [] else FileLine(recs[0]) + FileLines(recs[1..])
  }

  /** The announcements of a concatenation are the concatenated announcements. */
  lemma {:induction false} FileLinesAppend(a: seq<FileRecord>, b: seq<FileRecord>)
    ensures FileLines(a + b) == FileLines(a) + FileLines(b)
    decreases |a|
  {
    if a != [] {
      assert (a + b)[1..] == a[1..] + b;
      FileLinesAppend(a[1..], b);
      assert FileLine(a[0]) + (FileLines(a[1..]) + FileLines(b)) == (FileLine(a[0]) + FileLines(a[1..])) + FileLines(b);
    } else {
      assert [] + b == b;
    }
  }

  /** There is no line exactly when no record is written. */
  lemma {:induction false} FileLinesEmpty(recs: seq<FileRecord>)
    ensures FileLines(recs) == [] <==> forall k :: 0 <= k < |recs| ==> !Writes(recs[k])
    decreases |recs|
  {
    if recs != [] {
      FileLinesEmpty(recs[1..]);
      if !Writes(recs[0]) {
        assert FileLines(recs) == FileLines(recs[1..]);
        assert forall k :: 1 <= k < |recs| ==> recs[k] == recs[1..][k - 1];
        assert forall k :: 0 <= k < |recs[1..]| ==> recs[1..][k] == recs[k + 1];
      }
    }
  }

  /** The lines `get_actions` collects, given whether the probe failed. */
  function Actions(e: Entry, needsInstall: bool): seq<string>
  {
    (if e.install.Some? && needsInstall then [PackageLine(e.install.value)] else [])
    + (if e.files.Some? then FileLines(e.files.value) else [])
  }

  /** What `get_actions` prints: the name, the lines or "OK", and an empty line. */
  function Report(name: string, actions: seq<string>): (lines: seq<string>)
    ensures |lines| == 2 + (if actions == [] then 1 else |actions|)
    ensures lines[0] == "Name: " + name && lines[|lines| - 1] == []
    ensures actions != [] ==> lines[1..|lines| - 1] == actions
    ensures actions == [] ==> lines[1] == "OK"
  {
    ["Name: " + name] + (if actions == [] then ["OK"] else actions) + [[]]
  }

  /** The result of planning one entry. */
  datatype Planned = Planned(state: State, actions: seq<string>)

  /** `get_actions`: probe the package (when there is one), then list the
      file changes recorded at load time. */
  function PlanEntry(e: Entry, s: State, o: Oracle): Planned
  {
    match e.install
    case None => Planned(s, Actions(e, false))
    case Some(c) =>
      var probe := RunCommand(s, o, c.ifFail);
      Planned(probe.state, Actions(e, !probe.status))
  }

  /** Planning leaves the filesystem alone and issues at most the probe. */
  lemma PlanEntryFrame(e: Entry, s: State, o: Oracle)
    ensures PlanEntry(e, s, o).state.fs == s.fs
    ensures PlanEntry(e, s, o).state.log ==
      s.log + (if e.install.Some? then [ProbeCall(e.install.value)] else [])
  {
  }

  /** An entry reports something to do exactly when its probe fails or one of
      its files would be created or updated. */
  lemma PlanEntryHasActions(e: Entry, s: State, o: Oracle)
    ensures PlanEntry(e, s, o).actions != [] <==>
      || (e.install.Some? && o.exec(|s.log|).exitCode != 0)
      || (e.files.Some? && exists k :: 0 <= k < |e.files.value| && Writes(e.files.value[k]))
  {
    if e.files.Some? {
      FileLinesEmpty(e.files.value);
    }
  }

  /** The loop of `get_actions` over the file records. */
  method CollectFileLines(recs: seq<FileRecord>) returns (lines: seq<string>)
    ensures lines == FileLines(recs)
  {
    lines := [];
    for i := 0 to |recs|
      invariant lines == FileLines(recs[..i])
    {
      assert FileLines(recs[..i + 1]) == lines + FileLine(recs[i]) by {
        FileLinesAppend(recs[..i], [recs[i]]);
        assert recs[..i + 1] == recs[..i] + [recs[i]];
        assert [recs[i]][1..] == [];
      }
      match recs[i].action {
        case Created =>
          lines := lines + ["File will be created: " + recs[i].target];
        case Updated =>
          lines := lines + ["File will be updated: " + recs[i].target];
        case NoChange =>
      }
    }
    assert recs[..|recs|] == recs;
  }

  /** `get_actions`. */
  method GetActions(e: Entry, host: Host) returns (has: bool, report: seq<string>)
    modifies host
    ensures var p := PlanEntry(e, old(host.Snapshot()), host.oracle);
      && host.Snapshot() == p.state
      && report == Report(e.name, p.actions)
      && (has <==> p.actions != [])
  {
    var needs := false;
    if e.install.Some? {
      needs := ShouldBeInstalled(e.install.value, host);
    }
    var actions := if e.install.Some? && needs then [PackageLine(e.install.value)] else [];
    if e.files.Some? {
      var lines := CollectFileLines(e.files.value);
      actions := actions + lines;
    }
    assert actions == Actions(e, needs);
    report := Report(e.name, actions);
    has := actions != [];
  }
}

=== FILE: reconcile.dfy ===
/** The top level of the tool: load every entry, report what each would
    change, ask once for confirmation, and apply the entries in order. */
module Reconcile {
  import opened Common
  import opened Shell
  import opened Install
  import opened Files
  import opened Plan

  /** Every entry of the configuration built against the filesystem as it is
      before anything runs; the first entry that cannot be built ends the run. */
  function Load(raws: seq<RawEntry>, env: map<string, string>, fs: map<string, string>)
    : (r: Result<seq<Entry>, Fatal>)
    ensures r.Ok? ==> |r.value| == |raws|
    ensures r.Ok? ==> forall i :: 0 <= i < |raws| ==> Ok(r.value[i]) == NewEntry(raws[i], env, fs)
    ensures r.Ok? <==> forall i :: 0 <= i < |raws| ==> NewEntry(raws[i], env, fs).Ok?
    ensures r.Err? ==> exists i :: FirstBroken(raws, env, fs, i) && r.error == NewEntry(raws[i], env, fs).error
    decreases |raws|
  {
    if raws == [] then Ok([])
    else
      var n := |raws| - 1;
      assert forall i :: 0 <= i < n ==> raws[..n][i] == raws[i];
      match Load(raws[..n], env, fs)
      case Err(e) =>
        var i :| FirstBroken(raws[..n], env, fs, i) && e == NewEntry(raws[..n][i], env, fs).error;
        assert FirstBroken(raws, env, fs, i);
        Err(e)
      case Ok(es) =>
        match NewEntry(raws[n], env, fs)
        case Err(e) =>
          assert FirstBroken(raws, env, fs, n);
          Err(e)
        case Ok(last) =>
          Ok(es + [last])
  }

  /** Entry `i` is the first that cannot be built. */
  predicate FirstBroken(raws: seq<RawEntry>, env: map<string, string>, fs: map<string, string>, i: int)
  {
    && 0 <= i < |raws|
    && NewEntry(raws[i], env, fs).Err?
    && forall j :: 0 <= j < i ==> NewEntry(raws[j], env, fs).Ok?
  }

  /** A failure while loading a prefix is the failure of the whole load. */
  lemma {:induction false} LoadPrefixFailure(raws: seq<RawEntry>, i: nat, env: map<string, string>, fs: map<string, string>)
    requires i <= |raws| && Load(raws[..i], env, fs).Err?
    ensures Load(raws, env, fs) == Load(raws[..i], env, fs)
    decreases |raws| - i
  {
    if i < |raws| {
      var j := |raws| - 1;
      assert raws[..j][..i] == raws[..i];
      LoadPrefixFailure(raws[..j], i, env, fs);
      LoadLastFailure(raws, env, fs);
    } else {
      assert raws[..i] == raws;
    }
  }

  /** Once all but the last entry fail to load, the last is never built. */
  lemma LoadLastFailure(raws: seq<RawEntry>, env: map<string, string>, fs: map<string, string>)
    requires raws != [] && Load(raws[..|raws| - 1], env, fs).Err?
    ensures Load(raws, env, fs) == Load(raws[..|raws| - 1], env, fs)
  {
  }

  /** Every entry is valid once loaded. */
  predicate AllValid(es: seq<Entry>)
  {
    forall i :: 0 <= i < |es| ==> EntryValid(es[i])
  }

  /** The loop that builds the entries. */
  method LoadEntries(raws: seq<RawEntry>, env: map<string, string>, host: Host) returns (r: Result<seq<Entry>, Fatal>)
    ensures r == Load(raws, env, host.fs)
    ensures r.Ok? ==> AllValid(r.value)
  {
    var entries: seq<Entry> := [];
    assert raws[..0] == [];
    for i := 0 to |raws|
      invariant Load(raws[..i], env, host.fs) == Ok(entries)
    {
      var e := BuildEntry(raws[i], env, host);
      assert raws[..i + 1][..i] == raws[..i];
      if e.Err? {
        assert Load(raws[..i + 1], env, host.fs) == Err(e.error);
        LoadPrefixFailure(raws, i + 1, env, host.fs);
        return Err(e.error);
      }
      entries := entries + [e.value];
    }
    assert raws[..|raws|] == raws;
    r := Ok(entries);
  }

  /** What the planning pass produces: the host after the probes, whether any
      entry has something to do, and the printed report. */
  datatype Survey = Survey(state: State, any: bool, report: seq<string>)

  /** The planning pass: `get_actions` on every entry, in order (each entry
      is planned even when an earlier one already has actions). */
  function PlanAll(es: seq<Entry>, s: State, o: Oracle): Survey
    decreases |es|
  {
    if es == [] then Survey(s, false, [])
    else
      var p := PlanEntry(es[0], s, o);
      var rest := PlanAll(es[1..], p.state, o);
      Survey(rest.state, p.actions != [] || rest.any, Report(es[0].name, p.actions) + rest.report)
  }

  /** The probes of the entries that have an install configuration, in order. */
  function Probes(es: seq<Entry>): seq<Call>
    decreases |es|
  {
    if es == [] then []
    else (if es[0].install.Some? then [ProbeCall(es[0].install.value)] else []) + Probes(es[1..])
  }

  /** Planning changes no file and issues exactly one probe per install
      configuration, in entry order. */
  lemma {:induction false} PlanAllFrame(es: seq<Entry>, s: State, o: Oracle)
    ensures PlanAll(es, s, o).state == State(s.fs, s.log + Probes(es))
    decreases |es|
  {
    if es == [] {
      assert s.log + [] == s.log;
    } else {
      var p := PlanEntry(es[0], s, o);
      var probe := if es[0].install.Some? then [ProbeCall(es[0].install.value)] else [];
      PlanEntryFrame(es[0], s, o);
      PlanAllFrame(es[1..], p.state, o);
      assert p.state == State(s.fs, s.log + probe);
      assert Probes(es) == probe + Probes(es[1..]);
      assert (s.log + probe) + Probes(es[1..]) == s.log + (probe + Probes(es[1..]));
    }
  }

  /** Planning finds something to do exactly when some entry reports
      something, each entry seeing the probes of the entries before it. */
  lemma {:induction false} PlanAllAny(es: seq<Entry>, s: State, o: Oracle)
    ensures PlanAll(es, s, o).any <==>
      exists i :: 0 <= i < |es| && PlanEntry(es[i], PlanAll(es[..i], s, o).state, o).actions != []
    decreases |es|
  {
    if es != [] {
      var p := PlanEntry(es[0], s, o);
      PlanAllAny(es[1..], p.state, o);
      assert es[..0] == [];
      forall i | 1 <= i < |es|
        ensures PlanAll(es[..i], s, o).state == PlanAll(es[1..][..i - 1], p.state, o).state
      {
        assert es[..i][0] == es[0] && es[..i][1..] == es[1..][..i - 1];
      }
      if PlanAll(es[1..], p.state, o).any {
        var j :| 0 <= j < |es| - 1 && PlanEntry(es[1..][j], PlanAll(es[1..][..j], p.state, o).state, o).actions != [];
        assert es[j + 1] == es[1..][j];
      }
      if exists i :: 1 <= i < |es| && PlanEntry(es[i], PlanAll(es[..i], s, o).state, o).actions != [] {
        var i :| 1 <= i < |es| && PlanEntry(es[i], PlanAll(es[..i], s, o).state, o).actions != [];
        assert es[i] == es[1..][i - 1];
      }
    }
  }

  /** Whether the oracle's i-th reply is a command that exits with 0. */
  predicate Passes(o: Oracle, i: nat)
  {
    o.exec(i).exitCode == 0
  }

  /** Two runs of `n` calls from positions `a` and `b` see the same command
      successes. */
  predicate SameAnswers(o: Oracle, a: nat, b: nat, n: nat)
  {
    forall i :: a <= i < a + n ==> Passes(o, i) == Passes(o, i - a + b)
  }

  /** The plan depends only on whether each probe succeeds: two planning
      passes whose probes succeed and fail alike print the same report and
      reach the same decision, whatever the files and earlier calls. */
  lemma {:induction false} PlanAllReplay(es: seq<Entry>, s1: State, s2: State, o: Oracle)
    requires SameAnswers(o, |s1.log|, |s2.log|, |Probes(es)|)
    ensures PlanAll(es, s1, o).any == PlanAll(es, s2, o).any
    ensures PlanAll(es, s1, o).report == PlanAll(es, s2, o).report
    decreases |es|
  {
    if es != [] {
      var p1, p2 := PlanEntry(es[0], s1, o), PlanEntry(es[0], s2, o);
      PlanEntryFrame(es[0], s1, o);
      PlanEntryFrame(es[0], s2, o);
      var k := if es[0].install.Some? then 1 else 0;
      assert Probes(es) == (if es[0].install.Some? then [ProbeCall(es[0].install.value)] else []) + Probes(es[1..]);
      assert |p1.state.log| == |s1.log| + k && |p2.state.log| == |s2.log| + k;
      if es[0].install.Some? {
        assert Passes(o, |s1.log|) == Passes(o, |s2.log|);
      }
      assert p1.actions == p2.actions;
      forall i | |p1.state.log| <= i < |p1.state.log| + |Probes(es[1..])|
        ensures Passes(o, i) == Passes(o, i - |p1.state.log| + |p2.state.log|)
      {
        assert i - |s1.log| + |s2.log| == i - |p1.state.log| + |p2.state.log|;
      }
      PlanAllReplay(es[1..], p1.state, p2.state, o);
    }
  }

  /** Planning is read-only: a second planning pass right after the first,
      with probes that answer as they did the first time, prints the same
      report, and neither pass changes a file. */
  lemma PlanTwice(es: seq<Entry>, s: State, o: Oracle)
    requires SameAnswers(o, |s.log|, |s.log| + |Probes(es)|, |Probes(es)|)
    ensures var first := PlanAll(es, s, o);
      var second := PlanAll(es, first.state, o);
      && second.report == first.report
      && second.any == first.any
      && second.state.fs == s.fs
  {
    var first := PlanAll(es, s, o);
    PlanAllFrame(es, s, o);
    PlanAllFrame(es, first.state, o);
    PlanAllReplay(es, s, first.state, o);
  }

  /** `survey` after the entries in front of those still to be planned. */
  function Resume(any: bool, report: seq<string>, rest: Survey): Survey
  {
    Survey(rest.state, any || rest.any, report + rest.report)
  }

  /** The planning loop. */
  method PlanEntries(es: seq<Entry>, host: Host) returns (any: bool, report: seq<string>)
    modifies host
    ensures Survey(host.Snapshot(), any, report) == PlanAll(es, old(host.Snapshot()), host.oracle)
  {
    any := false;
    report := [];
    assert es[0..] == es;
    assert report + PlanAll(es, old(host.Snapshot()), host.oracle).report
      == PlanAll(es, old(host.Snapshot()), host.oracle).report;
    for i := 0 to |es|
      invariant PlanAll(es, old(host.Snapshot()), host.oracle) == Resume(any, report, PlanAll(es[i..], host.Snapshot(), host.oracle))
    {
      var rest := es[i..];
      assert rest[0] == es[i] && rest[1..] == es[i + 1..];
      ghost var before := host.Snapshot();
      var has, lines := GetActions(es[i], host);
      ghost var tail := PlanAll(es[i + 1..], host.Snapshot(), host.oracle);
      assert report + (lines + tail.report) == (report + lines) + tail.report;
      any := has || any;
      report := report + lines;
    }
    assert es[|es|..] == [];
    assert report + [] == report;
  }

  /** Applying one entry: install first, then write its files; a failed
      install ends the run before any file is written. */
  function ApplyEntry(e: Entry, s: State, o: Oracle): Step
    requires EntryValid(e)
  {
    var installed := if e.install.Some? then InstallSpec(e.install.value, s, o) else Step(s, Done);
    if installed.outcome.Abort? || e.files.None? then installed
    else Step(State(ApplyRecords(installed.state.fs, e.files.value), installed.state.log), Done)
  }

  /** The apply pass: every entry in order until one fails. */
  function ApplyAll(es: seq<Entry>, s: State, o: Oracle): Step
    requires AllValid(es)
    decreases |es|
  {
    if es == [] then Step(s, Done)
    else
      var st := ApplyEntry(es[0], s, o);
      if st.outcome.Abort? then st else ApplyAll(es[1..], st.state, o)
  }

  /** Applying a concatenation applies the first part, then, unless it
      failed, the second part from where the first left off. */
  lemma {:induction false} ApplyAllAppend(a: seq<Entry>, b: seq<Entry>, s: State, o: Oracle)
    requires AllValid(a) && AllValid(b)
    ensures AllValid(a + b)
    ensures ApplyAll(a + b, s, o) ==
      var first := ApplyAll(a, s, o);
      if first.outcome.Abort? then first else ApplyAll(b, first.state, o)
    decreases |a|
  {
    assert forall i :: 0 <= i < |a + b| ==> (a + b)[i] == if i < |a| then a[i] else b[i - |a|];
    if a == [] {
      assert a + b == b;
    } else {
      assert (a + b)[0] == a[0] && (a + b)[1..] == a[1..] + b;
      var st := ApplyEntry(a[0], s, o);
      if st.outcome.Done? {
        ApplyAllAppend(a[1..], b, st.state, o);
      }
    }
  }

  /** Applying never removes a file and only appends to the log. */
  lemma {:induction false} ApplyAllGrows(es: seq<Entry>, s: State, o: Oracle)
    requires AllValid(es)
    ensures s.fs.Keys <= ApplyAll(es, s, o).state.fs.Keys
    ensures s.log <= ApplyAll(es, s, o).state.log
    decreases |es|
  {
    if es != [] {
      var e := es[0];
      var installed := if e.install.Some? then InstallSpec(e.install.value, s, o) else Step(s, Done);
      if e.install.Some? {
        InstallKeepsFiles(e.install.value, s, o);
      }
      if e.files.Some? {
        ApplyRecordsGrows(installed.state.fs, e.files.value);
      }
      var st := ApplyEntry(e, s, o);
      if st.outcome.Done? {
        ApplyAllGrows(es[1..], st.state, o);
      }
    }
  }

  /** The loop of the apply pass. */
  method ApplyEntries(es: seq<Entry>, host: Host) returns (outcome: Outcome)
    requires AllValid(es)
    modifies host
    ensures Step(host.Snapshot(), outcome) == ApplyAll(es, old(host.Snapshot()), host.oracle)
  {
    assert es[0..] == es;
    for i := 0 to |es|
      invariant ApplyAll(es, old(host.Snapshot()), host.oracle) == ApplyAll(es[i..], host.Snapshot(), host.oracle)
    {
      var rest := es[i..];
      assert rest[0] == es[i] && rest[1..] == es[i + 1..];
      var e := es[i];
      var installed := Done;
      if e.install.Some? {
        installed := Install.Install(e.install.value, host);
      }
      if installed.Abort? {
        return installed;
      }
      if e.files.Some? {
        WriteFiles(e.files.value, host);
      }
    }
    assert es[|es|..] == [];
    outcome := Done;
  }

  /** The outcome of a whole run: the host afterwards, how the run ended,
      what was printed as the plan, and whether the user was asked. */
  datatype RunResult = RunResult(state: State, outcome: Outcome, report: seq<string>, prompted: bool)

  /** The main program: load, plan, ask only when there is something to do,
      and apply only on the answer "Y". */
  function RunSpec(raws: seq<RawEntry>, env: map<string, string>, answer: string, s: State, o: Oracle): RunResult
  {
    match Load(raws, env, s.fs)
    case Err(e) => RunResult(s, Abort(e), [], false)
    case Ok(es) =>
      LoadValid(raws, env, s.fs);
      var survey := PlanAll(es, s, o);
      if !survey.any then RunResult(survey.state, Done, survey.report, false)
      else if answer != "Y" then RunResult(survey.state, Done, survey.report, true)
      else
        var st := ApplyAll(es, survey.state, o);
        RunResult(st.state, st.outcome, survey.report, true)
  }

  /** Loaded entries are valid. */
  lemma LoadValid(raws: seq<RawEntry>, env: map<string, string>, fs: map<string, string>)
    ensures Load(raws, env, fs).Ok? ==> AllValid(Load(raws, env, fs).value)
  {
    if Load(raws, env, fs).Ok? {
      var es := Load(raws, env, fs).value;
      forall i | 0 <= i < |es|
        ensures EntryValid(es[i])
      {
        assert Ok(es[i]) == NewEntry(raws[i], env, fs);
      }
    }
  }

  /** A configuration that cannot be loaded stops the run before any command
      or download and before any question. */
  lemma LoadFailureDoesNothing(raws: seq<RawEntry>, env: map<string, string>, answer: string, s: State, o: Oracle)
    requires Load(raws, env, s.fs).Err?
    ensures RunSpec(raws, env, answer, s, o) == RunResult(s, Abort(Load(raws, env, s.fs).error), [], false)
  {
  }

  /** Unless the user types exactly "Y", the run changes no file and issues
      only the probes of the planning pass. */
  lemma DeclinedChangesNothing(raws: seq<RawEntry>, env: map<string, string>, answer: string, s: State, o: Oracle)
    requires Load(raws, env, s.fs).Ok? && answer != "Y"
    ensures var r := RunSpec(raws, env, answer, s, o);
      && r.state == State(s.fs, s.log + Probes(Load(raws, env, s.fs).value))
      && r.outcome == Done
  {
    PlanAllFrame(Load(raws, env, s.fs).value, s, o);
  }

  /** When no entry has anything to do the user is not asked and nothing
      beyond the probes happens, whatever the answer would have been. */
  lemma NothingToDoNoPrompt(raws: seq<RawEntry>, env: map<string, string>, answer: string, s: State, o: Oracle)
    requires Load(raws, env, s.fs).Ok?
    requires !PlanAll(Load(raws, env, s.fs).value, s, o).any
    ensures var r := RunSpec(raws, env, answer, s, o);
      && !r.prompted
      && r.state == State(s.fs, s.log + Probes(Load(raws, env, s.fs).value))
      && r.outcome == Done
      && r == RunSpec(raws, env, "Y", s, o)
  {
    PlanAllFrame(Load(raws, env, s.fs).value, s, o);
  }

  /** A confirmed run keeps every file that existed and every call of the
      planning pass, and follows the planning probes with the apply pass. */
  lemma ConfirmedRunExtends(raws: seq<RawEntry>, env: map<string, string>, s: State, o: Oracle)
    requires Load(raws, env, s.fs).Ok?
    requires PlanAll(Load(raws, env, s.fs).value, s, o).any
    ensures var r := RunSpec(raws, env, "Y", s, o);
      && r.prompted
      && s.fs.Keys <= r.state.fs.Keys
      && s.log + Probes(Load(raws, env, s.fs).value) <= r.state.log
  {
    var es := Load(raws, env, s.fs).value;
    LoadValid(raws, env, s.fs);
    PlanAllFrame(es, s, o);
    ApplyAllGrows(es, PlanAll(es, s, o).state, o);
  }

  /** The main program. */
  method Run(raws: seq<RawEntry>, env: map<string, string>, answer: string, host: Host)
    returns (outcome: Outcome, report: seq<string>, prompted: bool)
    modifies host
    ensures RunResult(host.Snapshot(), outcome, report, prompted) == RunSpec(raws, env, answer, old(host.Snapshot()), host.oracle)
  {
    var loaded := LoadEntries(raws, env, host);
    if loaded.Err? {
      return Abort(loaded.error), [], false;
    }
    var any;
    any, report := PlanEntries(loaded.value, host);
    if !any {
      return Done, report, false;
    }
    prompted := true;
    if answer != "Y" {
      return Done, report, prompted;
    }
    outcome := ApplyEntries(loaded.value, host);
  }
}

=== FILE: shell.dfy ===
/** The command runner and the host the tool acts on.

    The host is abstract: a flat filesystem (path to content), the ordered log
    of every external call the tool has made (commands and HTTP downloads), and
    an oracle that answers those calls. The i-th call in the log, counting from
    zero over commands and downloads together, receives the oracle's reply i, so
    the same probe may answer differently before and after an install. */
module Shell {
  import opened Common

  /** `s.split(sep)` for a one-character separator: the pieces between
      separators, empty pieces included, and never an empty list. */
  function Split(s: string, sep: char): (parts: seq<string>)
    ensures |parts| >= 1
    ensures forall k :: 0 <= k < |parts| ==> sep !in parts[k]
    decreases |s|
  {
    if s == [] then [[]]
    else
      var rest := Split(s[1..], sep);
      if s[0] == sep then [[]] + rest
      else [[s[0]] + rest[0]] + rest[1..]
  }

  /** `sep.join(parts)`: the inverse of Split. */
  function Join(parts: seq<string>, sep: char): string
    decreases |parts|
  {
    if parts == [] then []
    else if |parts| == 1 then parts[0]
    else parts[0] + [sep] + Join(parts[1..], sep)
  }

  /** A join with more than one piece starts with the first piece and the separator. */
  lemma JoinCons(first: string, rest: seq<string>, sep: char)
    requires rest != []
    ensures Join([first] + rest, sep) == first + [sep] + Join(rest, sep)
  {
    assert ([first] + rest)[1..] == rest;
  }

  /** Joining the pieces of a split gives back the original string. */
  lemma {:induction false} SplitJoin(s: string, sep: char)
    ensures Join(Split(s, sep), sep) == s
    decreases |s|
  {
    if s != [] {
      var rest := Split(s[1..], sep);
      SplitJoin(s[1..], sep);
      if s[0] != sep && |rest| > 1 {
        assert Join(rest, sep) == rest[0] + [sep] + Join(rest[1..], sep);
        assert Join(Split(s, sep), sep) == [s[0]] + rest[0] + [sep] + Join(rest[1..], sep);
      }
    }
  }

  /** A piece without the separator is glued to the first piece of what follows. */
  lemma {:induction false} SplitPrefix(x: string, y: string, sep: char)
    requires sep !in x
    ensures Split(x + y, sep) == [x + Split(y, sep)[0]] + Split(y, sep)[1..]
    decreases |x|
  {
    if x != [] {
      var s := x + y;
      assert x[0] in x;
      assert s[0] == x[0] != sep;
      assert s[1..] == x[1..] + y;
      SplitPrefix(x[1..], y, sep);
      var rest := Split(s[1..], sep);
      assert rest == [x[1..] + Split(y, sep)[0]] + Split(y, sep)[1..];
      assert Split(s, sep) == [[s[0]] + rest[0]] + rest[1..];
      assert [x[0]] + x[1..] == x;
      assert [s[0]] + rest[0] == x + Split(y, sep)[0];
      assert rest[1..] == Split(y, sep)[1..];
    } else {
      var parts := Split(y, sep);
      assert x + y == y && x + parts[0] == parts[0];
      assert parts == [parts[0]] + parts[1..];
    }
  }

  /** A string followed by a separator splits off as one whole piece. */
  lemma SplitAtSeparator(x: string, y: string, sep: char)
    requires sep !in x
    ensures Split(x + [sep] + y, sep) == [x] + Split(y, sep)
  {
    var z := [sep] + y;
    SplitPrefix(x, z, sep);
    assert x + [sep] + y == x + z;
    assert z[1..] == y;
    assert Split(z, sep) == [[]] + Split(y, sep);
    assert x + [] == x;
  }

  /** Splitting the join of separator-free pieces gives back the pieces. */
  lemma {:induction false} JoinSplit(parts: seq<string>, sep: char)
    requires |parts| >= 1
    requires forall k :: 0 <= k < |parts| ==> sep !in parts[k]
    ensures Split(Join(parts, sep), sep) == parts
    decreases |parts|
  {
    if |parts| == 1 {
      SplitPrefix(parts[0], [], sep);
      assert parts[0] + [] == parts[0];
    } else {
      JoinSplit(parts[1..], sep);
      SplitAtSeparator(parts[0], Join(parts[1..], sep), sep);
    }
  }

  /** Separator-free words joined in front of a string split off one by one. */
  lemma {:induction false} SplitLeadingWords(words: seq<string>, rest: string, sep: char)
    requires forall k :: 0 <= k < |words| ==> sep !in words[k]
    ensures Split(Join(words + [rest], sep), sep) == words + Split(rest, sep)
    decreases |words|
  {
    if words != [] {
      var tail := words[1..] + [rest];
      assert words + [rest] == [words[0]] + tail;
      SplitLeadingWords(words[1..], rest, sep);
      SplitAtSeparator(words[0], Join(tail, sep), sep);
      assert words == [words[0]] + words[1..];
    } else {
      assert words + [rest] == [rest];
    }
  }

  /** What a subprocess reports when it exits. */
  datatype ProcessResult = ProcessResult(exitCode: int, stdout: string, stderr: string)

  /** What an HTTP GET returns: the status, the body as written to disk
      (`res.content`) and the body as text (`res.text`). */
  datatype Response = Response(status: int, content: string, text: string)

  /** One external call, as the host sees it. */
  datatype Call = Exec(argv: seq<string>) | Get(url: string)

  /** The replies of the outside world, by position of the call in the log. */
  datatype Oracle = Oracle(exec: nat -> ProcessResult, fetch: nat -> Response)

  /** The part of the host the tool changes. */
  datatype State = State(fs: map<string, string>, log: seq<Call>)

  /** The host after a step of the run, and how the step ended. */
  datatype Step = Step(state: State, outcome: Outcome)

  /** A command's effect: the new host state, `status` and `output`. */
  datatype Ran = Ran(state: State, status: bool, output: string)

  /** The argument vector `run_command` hands to the subprocess. */
  function Argv(command: string): seq<string>
  {
    Split(command, ' ')
  }

  /** `run_command`: issue `command` split on single spaces; succeed iff the
      exit code is 0; report stdout on success and stderr otherwise. */
  function RunCommand(s: State, o: Oracle, command: string): Ran
  {
    var p := o.exec(|s.log|);
    var status := p.exitCode == 0;
    Ran(State(s.fs, s.log + [Exec(Argv(command))]), status, if status then p.stdout else p.stderr)
  }

  /** `requests.get(url)`: one logged download and the oracle's response. */
  function HttpGet(s: State, o: Oracle, url: string): (State, Response)
  {
    (State(s.fs, s.log + [Get(url)]), o.fetch(|s.log|))
  }

  /** The host machine: its filesystem and the calls made to it so far. */
  class Host {
    var fs: map<string, string>
    var log: seq<Call>
    const oracle: Oracle

    function Snapshot(): State
      reads this
    {
      State(fs, log)
    }

    constructor (fs0: map<string, string>, replies: Oracle)
      ensures fs == fs0 && log == [] && oracle == replies
    {
      fs := fs0;
      log := [];
      oracle := replies;
    }

    /** Runs one command; the filesystem is left alone. */
    method Run(command: string) returns (status: bool, output: string)
      modifies this
      ensures Ran(Snapshot(), status, output) == RunCommand(old(Snapshot()), oracle, command)
      ensures fs == old(fs) && log == old(log) + [Exec(Argv(command))]
      ensures status <==> oracle.exec(|old(log)|).exitCode == 0
    {
      var p := oracle.exec(|log|);
      log := log + [Exec(Argv(command))];
      status := p.exitCode == 0;
      output := if status then p.stdout else p.stderr;
    }

    /** Downloads `url`; the filesystem is left alone. */
    method Fetch(url: string) returns (res: Response)
      modifies this
      ensures (Snapshot(), res) == HttpGet(old(Snapshot()), oracle, url)
      ensures fs == old(fs) && log == old(log) + [Get(url)]
    {
      res := oracle.fetch(|log|);
      log := log + [Get(url)];
    }

    /** `open(path, "w").write(content)`: replaces the whole file. */
    method Write(path: string, content: string)
      modifies this
      ensures fs == old(fs)[path := content] && log == old(log)
    {
      fs := fs[path := content];
    }
  }
}
